=== FILE: README.md ===
# Eirene chat core in Dafny

This project models the conversation core of the Eirene counselling chat server:
- the helpers for parsing model replies and formatting history;
- the readiness (AAQ-II) score;
- the five-stage counselling progression;
- specialist routing;
- the short-term memory with its background summariser;
- the per-user stage registry;
- the agents;
- the three request handlers: start a session, take a turn, end a session.

Every outside call is a parameter. A single language-model, embedding or vector-store call is a `Call<T>`, which is either `Returned(value)` or `Raised`. The counsellor's streaming completion is a `ChunkStream`: the chunks it yielded, and whether it raised after them. The Clova HTTP reply is an `HttpReply`: a status code and an optional JSON body. The facts retrieved from long-term memory come in as a list of strings. The model is therefore a set of pure functions over explicit state. The properties are proved over all oracle answers.

One module per source file:
- `Common`: ASCII `isdigit`, `upper` and `strip`, plus `join`.
- `Utils` (`chat/modules/utils.py`): `trim_str`, `extract_int` and `format_chat_history`.
- `Scoring` (`chat/modules/scoring.py`): the seven-item readiness score and its band.
- `Stages`: the transition table and instruction lookup used by `chat/modules/agents.py`.
- `Router` (`chat/modules/router.py`): the fan-out router, plus the post-processing of the deprecated HTTP router.
- `Memory` (`chat/modules/memory.py`): `ShortTermMemory` as a state machine of atomic steps, and the empty-list fallbacks of `LongTermMemory`.
- `Registry` (`chat/modules/database.py`): `UserSessionDB` as a finite map.
- `Agents` (`chat/modules/agents.py`): the monitor, the escalation check, the specialist block, the counsellor stream and the context agent.
- `Server` (`chat/main.py`): the request handlers and the background stage reconciliation.

Some behaviours are modelled as the code has them, and each is stated by a lemma:
- **Truncation, not rounding.** The overall score is `int(sum * 7 / n)`, which truncates. `Scoring.OverallScore` states the truncation band `r * n <= sum * 7 < (r + 1) * n`. The code truncates; it does not round.
- **Pruning after a summary.** Once a summary exists, a later summary prunes one more live message than it summarises. The snapshot then starts with the old summary, but the prune count is the snapshot's length minus four. See `Memory.LaterSummaryDropsOneUnsummarizedMessage`. The history length after an immediate summary is therefore five the first time and four afterwards (`Memory.HistoryLengthAfterImmediateSummary`).
- **Reconciliation order.** When a session ends in ACCEPTANCE and the user scores ready, REMINISCENCE is written first. Then the session's own stage is written over it whenever the stored stage differed at the start. See `Server.ReconcileOverwritesUpgrade`.
- **Case sensitivity.** The transition table upper-cases its key. The instruction lookup does not. See `Stages.CaseSensitivityOfTheTwoTables`.
- **Raw storage.** Stage names are validated after strip and upper-case but stored raw (`Registry.StoresRawName`).

The concurrency of the short-term memory is an interleaving of atomic steps: `UserMessage`, `AiMessage`, `Summarize` and `ShutdownSignal`. The worker's job is a single step. Between its dequeue and its commit, the foreground can only append, because the in-flight flag stays set. Such appends commute with the prefix prune. `Memory.RunKeepsValid` proves that every interleaving keeps the invariant that at most one summary is in flight and that the flag is set exactly when one is.

## Model

| member | source | states |
|---|---|---|
| Common.Strip | chat/main.py:218 | the result is a slice of the input with only white space cut on either side, and it neither starts nor ends with white space |
| Common.JoinSnoc | chat/modules/utils.py:95 | joining one more part appends the separator and that part |
| Utils.TrimStr | chat/modules/utils.py:62-65 | a message within the limit comes back unchanged; a longer one becomes its first `limit` characters with line feeds turned into spaces, followed by "..." |
| Utils.TrimStrIdempotent | chat/modules/utils.py:62-65 | trimming twice with the same limit gives the same result as trimming once |
| Utils.FirstDigitIndex | chat/modules/utils.py:71 | the position of the first decimal digit, or none exactly when the text has no digit |
| Utils.ExtractInt | chat/modules/utils.py:68-87 | no digit gives the default; otherwise the first digit's value when it lies in the option range and the default when it does not; any non-default result is a digit found in the text |
| Utils.ParseBinary | chat/modules/router.py:38 | the reply reads as 0 or 1, and as 1 exactly when its first digit is '1' |
| Utils.ExtractIntReadsFirstDigitOnly | chat/modules/utils.py:71-82 | anything after the first digit does not affect the result |
| Utils.ExtractIntExamples | chat/modules/utils.py:79-87 | "10" in range 0..1 reads 1; a first digit of 8 in range 1..7 gives the default even when an in-range digit follows |
| Utils.FormatChatHistory | chat/modules/utils.py:94-95 | an empty history formats to ""; one message formats to its "- type: content" line |
| Utils.FormatChatHistoryAppend | chat/modules/utils.py:94-95 | formatting a history with one more message appends a line feed and that message's line |
| Scoring.GetScore | chat/modules/scoring.py:21-35 | an item score is in 0..7, 0 when the call raised, and otherwise the reply's first digit when it is in 1..7, else 0 |
| Scoring.TruncDiv | chat/modules/scoring.py:41 | division truncating toward zero: the quotient has the dividend's sign and the largest magnitude not exceeding it |
| Scoring.OverallScore | chat/modules/scoring.py:37-41 | -1 when all seven items abstain; otherwise the truncation of sum*7 divided by the number of non-abstaining items |
| Scoring.OverallScoreRange | chat/modules/scoring.py:37-41 | for valid item scores the overall score is -1 exactly when every item abstained, and in 7..49 otherwise |
| Scoring.OverallScoreExtremes | chat/modules/scoring.py:37-41 | all sevens score 49; all abstentions score -1 |
| Scoring.OverallScoreOrderIndependent | chat/modules/scoring.py:37-41 | any permutation of the item scores gives the same overall score |
| Scoring.IsReadyToAccept | chat/modules/scoring.py:43-50 | the score is the aggregate `_get_overall_score` of the seven answers, and ready exactly when 7 <= score < 18; the score is -1 exactly when every item reads 0, and is -1 or in 7..49; all raising calls give not ready with -1 |
| Scoring.ReadinessOrderIndependent | chat/modules/scoring.py:43-50 | reordering the seven questions' replies does not change readiness or score |
| Stages.ToNextSession | chat/modules/agents.py:231-232 | a name whose upper-case form is one of the first four stages moves to the next stage; any other name is returned unchanged |
| Stages.AdvanceIsOneStep | chat/modules/agents.py:202-207 | on a stage, advancing moves exactly one position along SETTING, PERCEPTION, EMOTION, ACCEPTANCE, REMINISCENCE, or stays at the last |
| Stages.ReminiscenceIsFixedPoint | chat/modules/agents.py:231-232 | advancing REMINISCENCE, once or twice, leaves it REMINISCENCE |
| Stages.AdvanceIgnoresCase | chat/modules/agents.py:231-232 | a name whose upper-case form is one of the first four stages advances exactly as that upper-case form does |
| Stages.InstructionFor | chat/modules/agents.py:61-63 | a stage's own instruction exactly for the five canonical spellings, the default instruction for everything else |
| Stages.CaseSensitivityOfTheTwoTables | chat/modules/agents.py:61-63 | "setting" advances to PERCEPTION yet gets the default instruction while it stays in lower case |
| Router.Select | chat/modules/router.py:37-46 | an entry is kept exactly when its reply reads 1; the kept entries keep catalogue order with no duplicates |
| Router.Route | chat/modules/router.py:25-50 | if any routing call raised the result is empty; otherwise a specialist is selected exactly when its reply's first digit is '1', in catalogue order, at most four |
| Router.RoleOf | chat/modules/router.py:96-102 | human maps to user, ai to assistant, system to system, and any other type to user |
| Router.ConvertHistory | chat/modules/router.py:93-104 | one Clova entry per message, same order and content, with the role of its type |
| Router.ConvertHistoryIsPerMessage | chat/modules/router.py:101-104 | converting a concatenation concatenates the conversions; every role is one of the three Clova roles |
| Router.MakeClovaRequest | chat/modules/router.py:106-113 | the request carries the query and an empty chat history exactly when the history is empty |
| Router.ClovaResult | chat/modules/router.py:114-121 | a 200 reply with a non-empty body gives its "result", or the no-result-key text when that is missing; every other reply gives "Error" |
| Router.ClovaResultOutcomes | chat/modules/router.py:114-121 | the answer is "Error", the no-result-key text, or the "result" field; any other text is the "result" field of a successful reply |
| Memory.NewShortTermMemory | chat/modules/memory.py:103-115 | a new memory satisfies the memory invariant and has an empty history |
| Memory.GetHistory | chat/modules/memory.py:117-120 | the summary, if any, comes first, followed by the live messages |
| Memory.AddUserMessage | chat/modules/memory.py:122-125 | the history grows by the human message and nothing is queued |
| Memory.AddAiMessage | chat/modules/memory.py:127-138 | the history grows by the AI message; a snapshot of the new history is queued exactly when the running length reaches 20 and no summary is in flight, and then the flag is set |
| Memory.ToSummarize | chat/modules/memory.py:155 | all but the last four entries of the snapshot, or nothing when the snapshot has four or fewer |
| Memory.WorkerStep | chat/modules/memory.py:140-175 | the worker takes the oldest job; a stop stops it; a short snapshot only clears the flag; a raising call clears the flag and ends the worker; otherwise the live buffer loses snapshot-length-minus-four leading messages, the summary is replaced and the length counter reset |
| Memory.Shutdown | chat/modules/memory.py:177-180 | the stop sentinel is queued behind every pending job; the messages, summary, counter, flag and worker state are untouched |
| Memory.StepKeepsValid | chat/modules/memory.py:122-175 | every atomic step keeps the invariant: length counter equals the live length, at most one snapshot pending, the flag set exactly when one is, and a pending snapshot is a prefix of the current history |
| Memory.RunKeepsValid | chat/modules/memory.py:122-180 | every interleaving of steps keeps the invariant |
| Memory.AtMostOneSummaryPending | chat/modules/memory.py:132-138 | from a new memory, any interleaving leaves at most one summary job queued |
| Memory.NoSecondJobWhileSummarizing | chat/modules/memory.py:132-138 | while a summary is in flight, recording a turn queues nothing |
| Memory.SummaryKeepsLaterMessages | chat/modules/memory.py:167-175 | a summary keeps every live message after the pruned prefix, including those appended while it was computed |
| Memory.FirstSummaryCoversPrunedMessages | chat/modules/memory.py:154-172 | with no earlier summary, the summarised messages are exactly the pruned ones |
| Memory.LaterSummaryDropsOneUnsummarizedMessage | chat/modules/memory.py:154-172 | with an earlier summary, the summarised input is that summary plus one fewer message than are pruned |
| Memory.HistoryLengthAfterImmediateSummary | chat/modules/memory.py:168-175 | summarising the current history right away leaves five entries the first time and four when a summary already existed |
| Memory.Retrieve | chat/modules/memory.py:60-79 | an uninitialised store, a raising backend or a missing result list gives []; otherwise the records' memory texts in order |
| Memory.RetrieveEmptyIff | chat/modules/memory.py:60-99 | retrieval is empty exactly when there is no store, the backend raised, it had no result list, or the list was empty |
| Registry.CanonicalNamesAreValid | chat/modules/database.py:68-72 | each of the five stage names passes validation |
| Registry.Get | chat/modules/database.py:145-150 | the stored name exactly for a known user, none otherwise |
| Registry.Insert | chat/modules/database.py:74-97 | succeeds exactly for a valid name and a new user, storing the raw name; a refusal changes nothing; other users are untouched |
| Registry.Update | chat/modules/database.py:99-125 | succeeds exactly for a valid name and a known user, storing the raw name; a refusal changes nothing; other users are untouched |
| Registry.Delete | chat/modules/database.py:127-143 | true exactly when the user was present; afterwards the user is unknown and others are untouched |
| Registry.StoresRawName | chat/modules/database.py:84-85 | a stage name in any case padded with blanks (" setting ") is accepted and stored as given, which differs from its canonical stripped upper-case form |
| Registry.InsertThenDelete | chat/modules/database.py:127-143 | deleting a user just inserted restores the table |
| Agents.MonitorDecide | chat/modules/agents.py:211-229 | the model is consulted exactly outside ACCEPTANCE and REMINISCENCE (any case), and the verdict is "advance" exactly when it was consulted, returned, and its reply's first digit is '1' |
| Agents.MonitorNeverAdvancesLateStages | chat/modules/agents.py:212-213 | whatever the model says, ACCEPTANCE and REMINISCENCE never advance per turn |
| Agents.EscalationDecide | chat/modules/agents.py:161-177 | 1 exactly when the call returned a reply whose first digit is '1', 0 otherwise including a raising call |
| Agents.SpecialistAnswer | chat/modules/agents.py:104-108 | a raising specialist answers "" and a returning one its reply |
| Agents.Answered | chat/modules/agents.py:51-59 | the increasing positions of exactly the non-empty responses |
| Agents.SpecialistLines | chat/modules/agents.py:51-59 | one labelled line per non-empty response, in routing order |
| Agents.SpecialistBlock | chat/modules/agents.py:43-59 | "" when nothing was routed, otherwise the labelled lines joined by line feeds |
| Agents.OneLinePerAnswer | chat/modules/agents.py:51-59 | the number of lines equals the number of positions holding a non-empty response, counted as a set |
| Agents.TwoOfThreeFail | chat/modules/agents.py:51-59 | with three routed specialists of which two fail, the block is the single line of the third |
| Agents.CounselorStream | chat/modules/agents.py:38-77 | a raising gather yields only the error chunk and sends no prompt; otherwise the prompt carries the stage instruction and the specialist block of the answers, and the completion's chunks are yielded in order, followed by exactly one error chunk when it raised and nothing else |
| Agents.StreamedText | chat/modules/agents.py:71-77 | the streamed text is the completion's text, followed by the error text when the completion raised, or the error text alone when the gather raised |
| Agents.AddSession | chat/modules/agents.py:249-252 | an existing memory is kept unless forced; a new or forced id gets a new memory; other ids are untouched |
| Agents.RemoveSession | chat/modules/agents.py:254-256 | an unknown id fails; otherwise exactly that id is dropped |
| Agents.GetStm | chat/modules/agents.py:271-275 | an unknown session has an empty history, a known one its memory's history |
| Agents.AddMessage | chat/modules/agents.py:258-269 | the session's history grows by the human message and then the AI message, creating the session when missing; the AI message goes through the summary trigger, so a snapshot is queued and the flag set exactly when the new length reaches 20 with no summary in flight; other sessions are untouched |
| Agents.AddMessageKeepsValid | chat/modules/agents.py:258-269 | recording a turn keeps every session memory's invariant |
| Server.StartSession | chat/main.py:148-169 | a first id already held by the same user gives 400 with no change; otherwise the session is created under the first id or, if another user holds it, the second; a new user starts in SETTING and is inserted; a known user starts in the stored stage and nothing is written; the new session gets a fresh short-term memory unless one exists, and every other memory is kept |
| Server.StartSessionKeepsValid | chat/main.py:162-166 | starting a session keeps every session backed by a valid short-term memory |
| Server.NonEmptyChunks | chat/main.py:266-271 | one forwarded chunk per non-empty position of the stream, and none of them empty |
| Server.NonEmptyChunksInOrder | chat/main.py:266-271 | the i-th forwarded chunk is the stream's i-th non-empty chunk, so order and repetitions are kept |
| Server.NonEmptyChunksMembers | chat/main.py:266-271 | every non-empty chunk gets through, nothing else does, and a stream without empty chunks passes unchanged |
| Server.NonEmptyChunksKeepText | chat/main.py:266-271 | dropping the empty chunks leaves the concatenated text unchanged, so the recorded reply is the whole stream's text |
| Server.Chat | chat/main.py:215-285 | an unknown session gives 404 and no effect, a known one 200; dummy mode streams one chunk and records nothing; an escalation streams only the escalation message, skips the monitor, keeps the stage and records that message; other sessions, the registry and the memories are untouched |
| Server.WithStage | chat/main.py:258-264 | moving one session to a new stage keeps its user, and leaves the registry, the memories and every other session as they were |
| Server.Counsel | chat/main.py:253-283 | the non-escalated branch answers 200, moves the session to `to_next_session` of its stage exactly when the monitor's verdict is an advance, leaves every other session, the registry and the memories alone, streams no empty chunk and records the streamed text as the reply |
| Server.CounselledTurn | chat/main.py:253-283 | without escalation the stage becomes `to_next_session` of the old one exactly when the monitor's verdict is an advance, and stays otherwise, with nothing else in the server changed; the monitor is consulted exactly outside ACCEPTANCE and REMINISCENCE; the counsellor is prompted with the stage after that change, the stripped message, the formatted history and the retrieved facts; the client receives exactly the counsellor stream's non-empty chunks, error chunk included; the recorded reply is their concatenation |
| Server.TurnAdvancesAtMostOneStep | chat/main.py:255-264 | a turn leaves a canonical stage on itself or on the next stage |
| Server.QuietTurn | chat/main.py:253-283 | with no escalation, no advance and no routing, the turn streams exactly the counsellor's non-empty chunks, keeps the stage, sends an empty specialist block and records one turn |
| Server.RecordTurn | chat/main.py:277-283 | the background task appends the user and the AI message to the session's history, creating the session's memory if needed, and through `add_ai_message`'s summary trigger, since the memory map is exactly `add_message`'s result; every other session's memory, the session map and the registry are untouched |
| Server.ChatKeepsValid | chat/main.py:276-283 | a turn and its recording keep every session backed by a valid short-term memory |
| Server.EndSession | chat/main.py:304-320 | an unknown session gives 404 and no effect; otherwise the session is removed and its memory dropped, and reconciliation is scheduled with its user and final stage; a missing memory gives 500 after the pop, with nothing scheduled |
| Server.EndSessionSucceeds | chat/main.py:304-320 | on a consistent server, ending a known session always succeeds and keeps the server consistent |
| Server.Reconcile | chat/main.py:323-353 | only the user's own row changes and an unknown user is never created; a ready ACCEPTANCE user already stored as ACCEPTANCE ends as REMINISCENCE; a changed valid stage is written; with an unchanged stage and no upgrade nothing changes |
| Server.ReconcileIgnoresInvalidStage | chat/main.py:323-353 | a session stage the registry refuses is never written: the registry comes back unchanged, whatever the readiness replies |
| Server.ReconcileOverwritesUpgrade | chat/main.py:333-353 | a ready user who reached ACCEPTANCE during the session from EMOTION ends stored as ACCEPTANCE, not REMINISCENCE |

## Left out

- Model, embedding, vector-store and HTTP calls: replaced by `Call` oracles. Prompt templates, `ClovaRouter._send_request` and the FAISS and SQLite internals are not modelled.
- SQLite failures other than the duplicate-key refusal are not modelled.
- Logging, `async_timer`, `set_logger`, `set_clovax_api_key`, the environment loading and `safe_str` are not modelled. They have no effect on the modelled state, or only re-encode text.
- `isdigit`, `upper` and `strip` are modelled on ASCII only. Unicode digits, case mappings and white space are outside the model.
- Scoring.OverallScore: computes `sum * 7 / n` exactly in integers. The source divides in floating point before truncating, which gives the same result for these small operands.
- Agents.CounselorStream: the gather is one oracle for all routed specialists, and each specialist's own outcome sits inside it. The MEDICAL and LEGACY agents pass a `use_keyword` argument that `VectorDB.search` (chat/modules/database.py:29) does not accept, and this raises outside their `try` (chat/modules/agents.py:93, 118). Whenever either is routed, the gather is therefore its `Raised` case and the turn streams only the error chunk. This hazard is not modelled further, and the vector search inside each specialist is not modelled.
- Agents.RemoveSession: the shutdown's join and the awaiting of the worker task are liveness, which is not modelled. The model drops the memory as soon as the stop sentinel is queued.
- Memory.AddAiMessage: the snapshot is put on the queue by a separate task. The model enqueues it immediately. An ordering in which a later stop sentinel overtakes that put is not modelled.
- Real `asyncio` scheduling is replaced by atomic steps. The worker's whole job is one step.
- `LongTermMemory.add`, `LongTermMemory.create` and `ContextAgent.get_ltm`'s call into the store: the store's contents are not modelled, and the retrieved texts are an oracle of each turn. `Memory.Retrieve` covers the fallbacks of `search` and `get`.
- `check_session`, the `created_at` field, the CORS setup and the application lifespan are not modelled. They only read the session map or configure the server.
- The uuids drawn by `start_session` are parameters.

=== FILE: agents.dfy ===
/**
 The agents of chat/modules/agents.py, with every language-model call
 replaced by an oracle: the stage monitor's per-turn decision, the
 escalation check, the specialist block and the streamed composition of
 `CounselorAgent`, and `ContextAgent`'s map from session id to short-term
 memory.
 */
module Agents {
  import opened Common
  import opened Utils
  import opened Stages
  import opened Router
  import opened Memory

  // ---------------------------------------------------------------------
  // MonitorAgent.ainvoke
  // ---------------------------------------------------------------------

  /** The monitor's verdict and whether it consulted the model at all. */
  datatype MonitorVerdict = MonitorVerdict(advance: bool, calledModel: bool)

  /** `MonitorAgent.ainvoke`: in ACCEPTANCE or REMINISCENCE (in any case)
      the answer is "stay" without a model call. Otherwise the model is
      asked once, and the answer is "advance" exactly when the call
      returned and its reply's first digit is '1'; a raising call means
      "stay". */
  function MonitorDecide(current: string, reply: Call<string>): (r: MonitorVerdict)
    ensures r.calledModel <==> Upper(current) != Acceptance && Upper(current) != Reminiscence
    ensures r.advance <==> r.calledModel && reply.Returned?
                           && exists i :: FirstDigitAt(reply.value, i) && reply.value[i] == '1'
  {
    var stage := Upper(current);
    if stage == Acceptance || stage == Reminiscence then MonitorVerdict(false, false)
    else match reply
      case Raised => MonitorVerdict(false, true)
      case Returned(text) => MonitorVerdict(ParseBinary(text) == 1, true)
  }

  /** Whatever the model would say, the monitor never advances a turn out of
      ACCEPTANCE or REMINISCENCE: those stages are left only through the
      readiness score at the end of a session. */
  lemma MonitorNeverAdvancesLateStages(current: string, reply: Call<string>)
    requires Upper(current) == Acceptance || Upper(current) == Reminiscence
    ensures !MonitorDecide(current, reply).advance
    ensures !MonitorDecide(current, reply).calledModel
  {
  }

  // ---------------------------------------------------------------------
  // EscalationAgent
  // ---------------------------------------------------------------------

  /** `EscalationAgent.message`, the fixed reply of the safety branch. */
  const EscalationMessage: string := "지금 매우 힘든 상황이시군요. 즉시 전문가와 상담해 주세요."

  /** `EscalationAgent.ainvoke`: 1 (intervene) exactly when the call
      returned and its reply's first digit is '1'; 0 otherwise, including
      when the call raised. */
  function EscalationDecide(reply: Call<string>): (r: int)
    ensures r == 0 || r == 1
    ensures r == 1 <==> reply.Returned? && exists i :: FirstDigitAt(reply.value, i) && reply.value[i] == '1'
  {
    match reply
    case Raised => 0
    case Returned(text) => ParseBinary(text)
  }

  // ---------------------------------------------------------------------
  // The specialist block of CounselorAgent.stream
  // ---------------------------------------------------------------------

  /** A specialist's answer: its reply, or "" (its `_default_return`) when
      its call raised inside its own `try`. */
  function SpecialistAnswer(reply: Call<string>): (r: string)
    ensures reply.Raised? ==> r == ""
    ensures reply.Returned? ==> r == reply.value
  {
    match reply
    case Raised => ""
    case Returned(text) => text
  }

  /** The answers of the gathered specialists, one per outcome. */
  function Responses(outcomes: seq<Call<string>>): (r: seq<string>)
    ensures |r| == |outcomes|
    ensures forall i :: 0 <= i < |outcomes| ==> r[i] == SpecialistAnswer(outcomes[i])
  {
    seq(|outcomes|, i requires 0 <= i < |outcomes| => SpecialistAnswer(outcomes[i]))
  }

  /** The line a specialist contributes: `- {NAME} 전문가: {response}`. */
  function SpecialistLine(a: Specialist, response: string): string {
    "- " + Name(a) + " 전문가: " + response
  }

  /** The positions of the non-empty responses, in increasing order. */
  function Answered(responses: seq<string>): (r: seq<nat>)
    ensures forall i :: 0 <= i < |r| ==> r[i] < |responses| && responses[r[i]] != ""
    ensures forall i, j :: 0 <= i < j < |r| ==> r[i] < r[j]
    ensures forall k :: 0 <= k < |responses| && responses[k] != "" ==> k in r
  {
    if |responses| == 0 then []
    else
      var prefix := Answered(responses[..|responses| - 1]);
      assert forall k :: 0 <= k < |responses| - 1 ==> responses[..|responses| - 1][k] == responses[k];
      if responses[|responses| - 1] != "" then prefix + [|responses| - 1] else prefix
  }

  /** When every response is non-empty, every position is kept. */
  lemma {:induction false} AnsweredAllIsIdentity(xs: seq<string>)
    requires forall i :: 0 <= i < |xs| ==> xs[i] != ""
    ensures |Answered(xs)| == |xs|
    ensures forall i :: 0 <= i < |xs| ==> Answered(xs)[i] == i
  {
    if |xs| > 0 {
      AnsweredAllIsIdentity(xs[..|xs| - 1]);
    }
  }

  /** The specialist lines, one per routed specialist whose response is
      non-empty, in routing order. */
  function SpecialistLines(routed: seq<Specialist>, responses: seq<string>): (r: seq<string>)
    requires |responses| == |routed|
    ensures var kept := Answered(responses);
            |r| == |kept| && forall i :: 0 <= i < |r| ==> r[i] == SpecialistLine(routed[kept[i]], responses[kept[i]])
  {
    var kept := Answered(responses);
    seq(|kept|, i requires 0 <= i < |kept| => SpecialistLine(routed[kept[i]], responses[kept[i]]))
  }

  /** `specialist_responses`: "" when nothing was routed; otherwise the
      specialist lines joined by line feeds. */
  function SpecialistBlock(routed: seq<Specialist>, responses: seq<string>): (r: string)
    requires |responses| == |routed|
    ensures routed == [] ==> r == ""
    ensures r == Join(SpecialistLines(routed, responses), "\n")
  {
    if routed == [] then "" else Join(SpecialistLines(routed, responses), "\n")
  }

  /** The positions whose response is non-empty, counted independently of
      the order in which `Answered` lists them. */
  function NonEmptyPositions(responses: seq<string>): set<nat> {
    set k: nat | k < |responses| && responses[k] != ""
  }

  /** Answering is decided position by position: the last response adds
      its own position or nothing. */
  lemma AnsweredStep(responses: seq<string>)
    requires |responses| > 0
    ensures var n := |responses| - 1;
            Answered(responses) == Answered(responses[..n]) + (if responses[n] != "" then [n] else [])
  {
  }

  lemma PositionsStep(responses: seq<string>)
    requires |responses| > 0
    ensures var n := |responses| - 1;
            && n !in NonEmptyPositions(responses[..n])
            && NonEmptyPositions(responses) ==
                 NonEmptyPositions(responses[..n]) + (if responses[n] != "" then {n} else {})
  {
    var n := |responses| - 1;
    assert forall k :: 0 <= k < n ==> responses[..n][k] == responses[k];
  }

  /** The block has exactly one line per specialist that answered. */
  lemma {:induction false} OneLinePerAnswer(responses: seq<string>)
    ensures |Answered(responses)| == |NonEmptyPositions(responses)|
  {
    if |responses| > 0 {
      var n := |responses| - 1;
      OneLinePerAnswer(responses[..n]);
      AnsweredStep(responses);
      PositionsStep(responses);
    }
  }

  /** Two failed specialists out of three leave exactly one labelled line. */
  lemma TwoOfThreeFail(routed: seq<Specialist>, good: string)
    requires |routed| == 3 && good != ""
    ensures |SpecialistLines(routed, ["", good, ""])| == 1
    ensures SpecialistBlock(routed, ["", good, ""]) == SpecialistLine(routed[1], good)
  {
    var responses := ["", good, ""];
    assert responses[..2] == ["", good];
    assert ["", good][..1] == [""];
    assert [""][..0] == [];
    assert Answered([""]) == [];
    assert Answered(["", good]) == [1];
    assert Answered(responses) == [1];
  }

  // ---------------------------------------------------------------------
  // CounselorAgent.stream
  // ---------------------------------------------------------------------

  /** The chunk `stream` yields after any failure. */
  const ErrorChunk: string := "\n[ERROR] 연결이 원활하지 못합니다."

  /** What the streaming completion produced: some chunks and, possibly, a
      failure raised after them. */
  datatype ChunkStream = ChunkStream(chunks: seq<string>, raised: bool)

  /** The inputs of the counsellor prompt (its template text is not part of
      the model). */
  datatype CounselorPrompt = CounselorPrompt(
    instruction: Instruction, specialistInfo: string, userInfo: string,
    history: string, query: string)

  /** What one `stream` call did: the prompt it sent, if it got that far, and
      the chunks it yielded. */
  datatype Composition = Composition(prompt: Option<CounselorPrompt>, chunks: seq<string>)

  /** `CounselorAgent.stream`, given the routing replies, the outcome of the
      specialist gather (each specialist's own outcome inside it) and what
      the streaming completion produced. If the gather raises, the only
      chunk is the error chunk; otherwise the prompt carries the stage's
      instruction (or the default) and the specialist block, and the
      completion's chunks are yielded verbatim, followed by the error chunk
      when the completion raised part-way. */
  function CounselorStream(query: string, history: string, userInfo: string, stage: string,
                           routing: seq<Call<string>>, gathered: Call<seq<Call<string>>>,
                           completion: ChunkStream): (r: Composition)
    requires |routing| == |Catalogue|
    requires gathered.Returned? ==> |gathered.value| == |Route(routing)|
    ensures Route(routing) != [] && gathered.Raised? ==> r == Composition(None, [ErrorChunk])
    ensures !(Route(routing) != [] && gathered.Raised?) ==>
              && r.prompt.Some?
              && r.prompt.value.instruction == InstructionFor(stage)
              && r.prompt.value.query == query && r.prompt.value.history == history
              && r.prompt.value.userInfo == userInfo
              && (Route(routing) == [] ==> r.prompt.value.specialistInfo == "")
              && (gathered.Returned? ==>
                    r.prompt.value.specialistInfo == SpecialistBlock(Route(routing), Responses(gathered.value)))
              && |completion.chunks| <= |r.chunks|
              && r.chunks[..|completion.chunks|] == completion.chunks
              && |r.chunks| == |completion.chunks| + (if completion.raised then 1 else 0)
              && (completion.raised ==> r.chunks[|completion.chunks|] == ErrorChunk)
  {
    var routed := Route(routing);
    if routed != [] && gathered.Raised? then
      Composition(None, [ErrorChunk])
    else
      var block := if routed == [] then ""
                   else SpecialistBlock(routed, Responses(gathered.value));
      var prompt := CounselorPrompt(InstructionFor(stage), block, userInfo, history, query);
      Composition(Some(prompt), completion.chunks + (if completion.raised then [ErrorChunk] else []))
  }

  /** What the stream sends, as text: the completion's text followed by the
      error text when it raised, or the error text alone when the gather
      raised. */
  lemma StreamedText(query: string, history: string, userInfo: string, stage: string,
                     routing: seq<Call<string>>, gathered: Call<seq<Call<string>>>, completion: ChunkStream)
    requires |routing| == |Catalogue|
    requires gathered.Returned? ==> |gathered.value| == |Route(routing)|
    ensures var r := CounselorStream(query, history, userInfo, stage, routing, gathered, completion);
            Concat(r.chunks)
            == if Route(routing) != [] && gathered.Raised? then ErrorChunk
               else Concat(completion.chunks) + (if completion.raised then ErrorChunk else "")
  {
    var r := CounselorStream(query, history, userInfo, stage, routing, gathered, completion);
    if Route(routing) != [] && gathered.Raised? {
      assert Concat([ErrorChunk]) == Concat([]) + ErrorChunk;
    } else if completion.raised {
      assert r.chunks[..|r.chunks| - 1] == completion.chunks;
    } else {
      assert r.chunks == completion.chunks;
    }
  }

  // ---------------------------------------------------------------------
  // ContextAgent
  // ---------------------------------------------------------------------

  /** `ContextAgent.stm`: one short-term memory per session id. */
  type SessionMemories = map<string, ShortTermMemory>

  /** `add_session`: a fresh memory for a new id, or for any id when forced;
      an existing memory is otherwise kept as it is. */
  function AddSession(stm: SessionMemories, id: string, forceInit: bool): (r: SessionMemories)
    ensures id in r && r.Keys == stm.Keys + {id}
    ensures id in stm && !forceInit ==> r == stm
    ensures id !in stm || forceInit ==> r[id] == NewShortTermMemory()
    ensures forall k :: k in stm && k != id ==> r[k] == stm[k]
  {
    if id in stm && !forceInit then stm else stm[id := NewShortTermMemory()]
  }

  /** `remove_session`: the memory is shut down and dropped; an unknown id
      raises (`None`). */
  function RemoveSession(stm: SessionMemories, id: string): (r: Option<SessionMemories>)
    ensures r.None? <==> id !in stm
    ensures r.Some? ==> r.value.Keys == stm.Keys - {id}
    ensures r.Some? ==> forall k :: k in r.value ==> r.value[k] == stm[k]
  {
    if id in stm then Some(stm - {id}) else None
  }

  /** `get_stm`: the session's history, or [] for an unknown id. */
  function GetStm(stm: SessionMemories, id: string): (r: seq<Message>)
    ensures id !in stm ==> r == []
    ensures id in stm ==> r == GetHistory(stm[id])
  {
    if id in stm then GetHistory(stm[id]) else []
  }

  /** `add_message`: a missing session is created first; then the user
      message and the AI message are appended, in that order. */
  function AddMessage(stm: SessionMemories, id: string, userMsg: string, aiMsg: string): (r: SessionMemories)
    ensures r.Keys == stm.Keys + {id}
    ensures forall k :: k in stm && k != id ==> r[k] == stm[k]
    ensures GetStm(r, id) == GetStm(stm, id) + [Message(Human, userMsg), Message(Ai, aiMsg)]
    ensures var m := AddSession(stm, id, false)[id];
            && r[id].lenHistory == m.lenHistory + 2
            && r[id].workerRunning == m.workerRunning
            && if m.lenHistory + 2 >= BufferLimit && !m.summarizing
               then r[id].queue == m.queue + [Snapshot(GetHistory(r[id]))] && r[id].summarizing
               else r[id].queue == m.queue && r[id].summarizing == m.summarizing
  {
    var ready := AddSession(stm, id, false);
    ready[id := AddAiMessage(AddUserMessage(ready[id], userMsg), aiMsg)]
  }

  /** Recording a turn keeps every session memory's invariant. */
  lemma AddMessageKeepsValid(stm: SessionMemories, id: string, userMsg: string, aiMsg: string)
    requires forall k :: k in stm ==> Valid(stm[k])
    ensures var r := AddMessage(stm, id, userMsg, aiMsg);
            forall k :: k in r ==> Valid(r[k])
  {
    var ready := AddSession(stm, id, false);
    StepKeepsValid(ready[id], UserMessage(userMsg));
    StepKeepsValid(AddUserMessage(ready[id], userMsg), AiMessage(aiMsg));
  }
}

=== FILE: common.dfy ===
/**
 The shared vocabulary of the model: optional values, the outcome of a call
 into a collaborator the model does not see (a language model, the vector
 store, an HTTP endpoint), and the handful of Python string operations the
 chat core relies on. Characters are classified by their ASCII meaning only.
 */
module Common {

  /** Python's `None`-or-value. */
  datatype Option<+T> = None | Some(value: T)

  /** What an external call did: it returned a value, or it raised. Every
      language-model, vector-store and HTTP call of the core is replaced by a
      value of this type, supplied by the caller of the model. */
  datatype Call<+T> = Returned(value: T) | Raised

  /** `str.isdigit()` restricted to the ASCII digits. */
  predicate IsDigit(c: char) {
    '0' <= c <= '9'
  }

  function DigitValue(c: char): (d: nat)
    requires IsDigit(c)
    ensures d <= 9
  {
    c as int - '0' as int
  }

  predicate IsLower(c: char) {
    'a' <= c <= 'z'
  }

  /** `str.upper()` on one ASCII character. */
  function UpperChar(c: char): (u: char)
    ensures !IsLower(u)
    ensures !IsLower(c) ==> u == c
  {
    if IsLower(c) then (c as int - 32) as char else c
  }

  /** `str.upper()`: every ASCII lower-case letter is replaced by its capital. */
  function Upper(s: string): (r: string)
    ensures |r| == |s|
    ensures forall i :: 0 <= i < |s| ==> r[i] == UpperChar(s[i])
  {
    seq(|s|, i requires 0 <= i < |s| => UpperChar(s[i]))
  }

  predicate NoLower(s: string) {
    forall i :: 0 <= i < |s| ==> !IsLower(s[i])
  }

  /** A string without lower-case letters is its own upper-case form. */
  lemma UpperOfNoLower(s: string)
    requires NoLower(s)
    ensures Upper(s) == s
  {
  }

  /** Upper-casing twice is upper-casing once. */
  lemma UpperIdempotent(s: string)
    ensures Upper(Upper(s)) == Upper(s)
  {
  }

  /** `str.isspace()` restricted to ASCII: space, tab, line feed, vertical
      tab, form feed, carriage return and the four separator controls. */
  predicate IsSpace(c: char) {
    c == ' ' || 9 <= c as int <= 13 || 28 <= c as int <= 31
  }

  predicate AllSpace(s: string) {
    forall i :: 0 <= i < |s| ==> IsSpace(s[i])
  }

  function StripLeft(s: string): (r: string)
    ensures |r| <= |s| && r == s[|s| - |r|..]
    ensures AllSpace(s[..|s| - |r|])
    ensures |r| > 0 ==> !IsSpace(r[0])
  {
    if |s| > 0 && IsSpace(s[0]) then StripLeft(s[1..]) else s
  }

  function StripRight(s: string): (r: string)
    ensures |r| <= |s| && r == s[..|r|]
    ensures AllSpace(s[|r|..])
    ensures |r| > 0 ==> !IsSpace(r[|r| - 1])
  {
    if |s| > 0 && IsSpace(s[|s| - 1]) then StripRight(s[..|s| - 1]) else s
  }

  /** `str.strip()`: the result is a contiguous piece of `s`, everything cut
      away on either side is white space, and the result neither starts nor
      ends with white space. */
  function Strip(s: string): (r: string)
    ensures exists i :: 0 <= i <= |s| - |r| && r == s[i..i + |r|]
                        && AllSpace(s[..i]) && AllSpace(s[i + |r|..])
    ensures |r| > 0 ==> !IsSpace(r[0]) && !IsSpace(r[|r| - 1])
  {
    var l := StripLeft(s);
    var r := StripRight(l);
    InnerSlice(s, |s| - |l|, |r|);
    r
  }

  /** A prefix of a suffix is a slice, and the rest of the suffix is the
      rest of the whole. */
  lemma InnerSlice(s: string, i: nat, n: nat)
    requires i + n <= |s|
    ensures s[i..][..n] == s[i..i + n]
    ensures s[i..][n..] == s[i + n..]
  {
  }

  /** One blank on each side of a word is stripped away, and only that. */
  lemma StripPadded(t: string)
    requires |t| > 0 && !IsSpace(t[0]) && !IsSpace(t[|t| - 1])
    ensures Strip([' '] + t + [' ']) == t
  {
    var s := [' '] + t + [' '];
    assert s[1..] == t + [' '];
    assert StripLeft(t + [' ']) == t + [' '];
    assert StripLeft(s) == t + [' '];
    assert (t + [' '])[..|t|] == t;
    assert StripRight(t) == t;
  }

  /** `sep.join(parts)`. */
  function Join(parts: seq<string>, sep: string): (r: string)
    ensures |parts| == 0 ==> r == ""
  {
    if |parts| == 0 then ""
    else if |parts| == 1 then parts[0]
    else parts[0] + sep + Join(parts[1..], sep)
  }

  /** Joining one more part appends the separator and that part. */
  lemma {:induction false} JoinSnoc(parts: seq<string>, x: string, sep: string)
    requires |parts| > 0
    ensures Join(parts + [x], sep) == Join(parts, sep) + sep + x
  {
    if |parts| == 1 {
      assert (parts + [x])[1..] == [x];
    } else {
      assert (parts + [x])[1..] == parts[1..] + [x];
      JoinSnoc(parts[1..], x, sep);
    }
  }

  /** `"".join(parts)`, the running `+=` of a stream's chunks. */
  function Concat(parts: seq<string>): (r: string)
  {
    if |parts| == 0 then "" else Concat(parts[..|parts| - 1]) + parts[|parts| - 1]
  }

}

=== FILE: memory.dfy ===
/**
 `ShortTermMemory` (chat/modules/memory.py) as a state machine, plus the
 empty-list fallbacks of `LongTermMemory.search` / `get`.

 The short-term memory holds the live messages of one conversation, an
 optional summary message, a running length, an "a summary is in flight"
 flag and the queue of the background worker. The foreground appends
 messages; after an AI message, once the running length reaches the buffer
 limit and no summary is in flight, a snapshot of `get_history()` is queued
 and the flag set. The worker takes one job at a time: a `None` sentinel
 stops it; a snapshot has all but its last four entries summarised by a
 language model, after which the live buffer loses `len(snapshot) - 4`
 leading messages and the summary is replaced.

 Concurrency is modelled as an arbitrary interleaving of atomic steps.
 A worker job is one step: between the moment the worker dequeues a
 snapshot and the moment it applies the summary, the foreground may only
 append messages (the flag is still set, so nothing is queued), and such
 appends commute with the job — the prune drops a prefix of the buffer and
 keeps everything after it.
 */
module Memory {
  import opened Common
  import opened Utils

  /** `memory_buffer_limit`. */
  const BufferLimit: nat := 20
  /** `num_chat_to_reserve`: entries of a snapshot kept out of the summary. */
  const Reserved: nat := 4

  /** An entry of `_summary_queue`: a copy of the history, or the `None`
      sentinel that stops the worker. */
  datatype Job = Snapshot(history: seq<Message>) | Stop

  datatype ShortTermMemory = ShortTermMemory(
    messages: seq<Message>,      // memory.chat_memory.messages
    summary: Option<Message>,    // self.summary
    lenHistory: int,             // self.len_history
    summarizing: bool,           // self._is_summarizing
    queue: seq<Job>,             // self._summary_queue, oldest first
    workerRunning: bool          // whether self._summary_task is still alive
  )

  /** A freshly constructed memory: empty buffer, no summary, idle worker. */
  function NewShortTermMemory(): (m: ShortTermMemory)
    ensures Valid(m)
    ensures GetHistory(m) == []
  {
    ShortTermMemory([], None, 0, false, [], true)
  }

  /** `get_history`: the summary, when there is one, followed by the live
      messages. */
  function GetHistory(m: ShortTermMemory): (r: seq<Message>)
    ensures m.summary.None? ==> r == m.messages
    ensures m.summary.Some? ==> |r| == |m.messages| + 1 && r[0] == m.summary.value && r[1..] == m.messages
  {
    if m.summary.Some? then [m.summary.value] + m.messages else m.messages
  }

  /** `add_user_message`: one human message at the end, length plus one,
      nothing else changes. */
  function AddUserMessage(m: ShortTermMemory, text: string): (r: ShortTermMemory)
    ensures r.messages == m.messages + [Message(Human, text)]
    ensures r.lenHistory == m.lenHistory + 1
    ensures GetHistory(r) == GetHistory(m) + [Message(Human, text)]
    ensures r.summary == m.summary && r.summarizing == m.summarizing
    ensures r.queue == m.queue && r.workerRunning == m.workerRunning
  {
    m.(messages := m.messages + [Message(Human, text)], lenHistory := m.lenHistory + 1)
  }

  /** `add_ai_message`: one AI message at the end and length plus one; a
      snapshot of the whole history (summary included) is queued exactly
      when the new length has reached the buffer limit and no summary is in
      flight, and queuing one sets the flag. */
  function AddAiMessage(m: ShortTermMemory, text: string): (r: ShortTermMemory)
    ensures r.messages == m.messages + [Message(Ai, text)]
    ensures r.lenHistory == m.lenHistory + 1
    ensures GetHistory(r) == GetHistory(m) + [Message(Ai, text)]
    ensures r.summary == m.summary && r.workerRunning == m.workerRunning
    ensures |r.queue| == |m.queue| + 1 <==> m.lenHistory + 1 >= BufferLimit && !m.summarizing
    ensures |r.queue| == |m.queue| + 1 ==> r.queue == m.queue + [Snapshot(GetHistory(r))] && r.summarizing
    ensures |r.queue| != |m.queue| + 1 ==> r.queue == m.queue && r.summarizing == m.summarizing
  {
    var appended := m.(messages := m.messages + [Message(Ai, text)], lenHistory := m.lenHistory + 1);
    if appended.lenHistory >= BufferLimit && !appended.summarizing then
      appended.(queue := appended.queue + [Snapshot(GetHistory(appended))], summarizing := true)
    else
      appended
  }

  /** `snapshot[:-4]`: the part of a snapshot that is sent to be summarised
      (empty when the snapshot has at most four entries). */
  function ToSummarize(snapshot: seq<Message>): (r: seq<Message>)
    ensures |snapshot| <= Reserved ==> r == []
    ensures |snapshot| > Reserved ==> |r| == |snapshot| - Reserved && r == snapshot[..|r|]
  {
    if |snapshot| > Reserved then snapshot[..|snapshot| - Reserved] else []
  }

  function Min(a: int, b: int): int {
    if a < b then a else b
  }

  /** One job of `_summary_worker`, with the summarising call's outcome as
      an oracle. A stopped worker, or one whose queue is empty, does
      nothing. Otherwise the oldest job is taken: the sentinel stops the
      worker; a snapshot of at most four entries changes nothing; a raising
      call changes nothing but kills the worker (there is no `except`);
      a returning call drops `len(snapshot) - 4` leading live messages,
      replaces the summary and resets the length. Whatever a snapshot job
      does, the flag is cleared afterwards. */
  function WorkerStep(m: ShortTermMemory, reply: Call<string>): (r: ShortTermMemory)
    ensures !m.workerRunning || m.queue == [] ==> r == m
    ensures m.workerRunning && m.queue != [] ==> r.queue == m.queue[1..]
    ensures m.workerRunning && m.queue != [] && m.queue[0].Stop? ==>
              !r.workerRunning && r.messages == m.messages && r.summary == m.summary
              && r.summarizing == m.summarizing && r.lenHistory == m.lenHistory
    ensures m.workerRunning && m.queue != [] && m.queue[0].Snapshot? ==> !r.summarizing
    ensures m.workerRunning && m.queue != [] && m.queue[0].Snapshot?
            && (|m.queue[0].history| <= Reserved || reply.Raised?) ==>
              r.messages == m.messages && r.summary == m.summary && r.lenHistory == m.lenHistory
              && (r.workerRunning <==> |m.queue[0].history| <= Reserved)
    ensures m.workerRunning && m.queue != [] && m.queue[0].Snapshot?
            && |m.queue[0].history| > Reserved && reply.Returned? ==>
              var pruned := Min(|m.queue[0].history| - Reserved, |m.messages|);
              && r.workerRunning
              && r.summary == Some(Message(Ai, reply.value))
              && |r.messages| == |m.messages| - pruned
              && r.messages == m.messages[pruned..]
              && r.lenHistory == |r.messages|
  {
    if !m.workerRunning || m.queue == [] then m
    else
      var rest := m.queue[1..];
      match m.queue[0]
      case Stop => m.(queue := rest, workerRunning := false)
      case Snapshot(h) =>
        if |ToSummarize(h)| == 0 then
          m.(queue := rest, summarizing := false)
        else
          match reply
          case Raised => m.(queue := rest, summarizing := false, workerRunning := false)
          case Returned(text) =>
            var pruned := Min(|h| - Reserved, |m.messages|);
            var live := m.messages[pruned..];
            m.(messages := live, summary := Some(Message(Ai, text)), lenHistory := |live|,
               queue := rest, summarizing := false)
  }

  /** `shutdown`: the `None` sentinel goes to the back of the queue. */
  function Shutdown(m: ShortTermMemory): (r: ShortTermMemory)
    ensures r.queue == m.queue + [Stop]
    ensures GetHistory(r) == GetHistory(m)
    ensures r.messages == m.messages && r.summary == m.summary && r.lenHistory == m.lenHistory
    ensures r.summarizing == m.summarizing && r.workerRunning == m.workerRunning
  {
    m.(queue := m.queue + [Stop])
  }

  // ---------------------------------------------------------------------
  // Interleavings
  // ---------------------------------------------------------------------

  /** One atomic step of the foreground or of the worker. */
  datatype Step =
    | UserMessage(text: string)
    | AiMessage(text: string)
    | Summarize(reply: Call<string>)
    | ShutdownSignal

  function Apply(m: ShortTermMemory, step: Step): ShortTermMemory {
    match step
    case UserMessage(text) => AddUserMessage(m, text)
    case AiMessage(text) => AddAiMessage(m, text)
    case Summarize(reply) => WorkerStep(m, reply)
    case ShutdownSignal => Shutdown(m)
  }

  function Run(m: ShortTermMemory, steps: seq<Step>): ShortTermMemory
    decreases |steps|
  {
    if |steps| == 0 then m else Run(Apply(m, steps[0]), steps[1..])
  }

  /** The number of snapshot jobs waiting in a queue. */
  function PendingSnapshots(q: seq<Job>): nat {
    if |q| == 0 then 0 else (if q[0].Snapshot? then 1 else 0) + PendingSnapshots(q[1..])
  }

  lemma {:induction false} PendingSnapshotsAppend(q: seq<Job>, j: Job)
    ensures PendingSnapshots(q + [j]) == PendingSnapshots(q) + (if j.Snapshot? then 1 else 0)
  {
    if |q| == 0 {
      assert q + [j] == [j];
    } else {
      assert (q + [j])[1..] == q[1..] + [j];
      PendingSnapshotsAppend(q[1..], j);
    }
  }

  lemma {:induction false} NoPendingMeansNoSnapshot(q: seq<Job>)
    requires PendingSnapshots(q) == 0
    ensures forall i :: 0 <= i < |q| ==> q[i].Stop?
  {
    if |q| > 0 {
      NoPendingMeansNoSnapshot(q[1..]);
      assert forall i :: 1 <= i < |q| ==> q[i] == q[1..][i - 1];
    }
  }

  predicate IsPrefix<T(==)>(a: seq<T>, b: seq<T>) {
    |a| <= |b| && a == b[..|a|]
  }

  /** The invariant of the memory, kept by every step: the running length is
      the live buffer's length; at most one snapshot job is pending, and the
      flag is set exactly when one is; and a pending snapshot is a prefix of
      the current history (the buffer has only grown since it was taken). */
  ghost predicate Valid(m: ShortTermMemory) {
    && m.lenHistory == |m.messages|
    && PendingSnapshots(m.queue) <= 1
    && (m.summarizing <==> PendingSnapshots(m.queue) == 1)
    && forall i :: 0 <= i < |m.queue| && m.queue[i].Snapshot? ==>
         IsPrefix(m.queue[i].history, GetHistory(m))
  }

  lemma ValidAfterAppend(m: ShortTermMemory, r: ShortTermMemory, msg: Message)
    requires Valid(m)
    requires r.queue == m.queue && r.summarizing == m.summarizing
    requires r.lenHistory == |r.messages|
    requires GetHistory(r) == GetHistory(m) + [msg]
    ensures Valid(r)
  {
    forall i | 0 <= i < |r.queue| && r.queue[i].Snapshot?
      ensures IsPrefix(r.queue[i].history, GetHistory(r))
    {
      var h := r.queue[i].history;
      assert GetHistory(r)[..|h|] == GetHistory(m)[..|h|];
    }
  }

  lemma ValidAfterAddAi(m: ShortTermMemory, text: string)
    requires Valid(m)
    ensures Valid(AddAiMessage(m, text))
  {
    var r := AddAiMessage(m, text);
    var msg := Message(Ai, text);
    if |r.queue| == |m.queue| + 1 {
      PendingSnapshotsAppend(m.queue, Snapshot(GetHistory(r)));
      forall i | 0 <= i < |r.queue| && r.queue[i].Snapshot?
        ensures IsPrefix(r.queue[i].history, GetHistory(r))
      {
        if i < |m.queue| {
          var h := r.queue[i].history;
          assert r.queue[i] == m.queue[i];
          assert GetHistory(r)[..|h|] == GetHistory(m)[..|h|];
        }
      }
    } else {
      ValidAfterAppend(m, r, msg);
    }
  }

  lemma ValidAfterWorkerStep(m: ShortTermMemory, reply: Call<string>)
    requires Valid(m)
    ensures Valid(WorkerStep(m, reply))
  {
    var r := WorkerStep(m, reply);
    if m.workerRunning && m.queue != [] {
      assert m.queue == [m.queue[0]] + m.queue[1..];
      forall i | 0 <= i < |r.queue| && r.queue[i].Snapshot?
        ensures IsPrefix(r.queue[i].history, GetHistory(r))
      {
        assert r.queue[i] == m.queue[i + 1];
        if m.queue[0].Snapshot? {
          NoPendingMeansNoSnapshot(m.queue[1..]);
          assert false;
        }
      }
    }
  }

  lemma ValidAfterShutdown(m: ShortTermMemory)
    requires Valid(m)
    ensures Valid(Shutdown(m))
  {
    PendingSnapshotsAppend(m.queue, Stop);
    var r := Shutdown(m);
    forall i | 0 <= i < |r.queue| && r.queue[i].Snapshot?
      ensures IsPrefix(r.queue[i].history, GetHistory(r))
    {
      assert r.queue[i] == m.queue[i];
    }
  }

  /** Every step keeps the invariant. */
  lemma StepKeepsValid(m: ShortTermMemory, step: Step)
    requires Valid(m)
    ensures Valid(Apply(m, step))
  {
    match step
    case UserMessage(text) => ValidAfterAppend(m, AddUserMessage(m, text), Message(Human, text));
    case AiMessage(text) => ValidAfterAddAi(m, text);
    case Summarize(reply) => ValidAfterWorkerStep(m, reply);
    case ShutdownSignal => ValidAfterShutdown(m);
  }

  /** Every interleaving keeps the invariant. */
  lemma {:induction false} RunKeepsValid(m: ShortTermMemory, steps: seq<Step>)
    requires Valid(m)
    ensures Valid(Run(m, steps))
    decreases |steps|
  {
    if |steps| > 0 {
      StepKeepsValid(m, steps[0]);
      RunKeepsValid(Apply(m, steps[0]), steps[1..]);
    }
  }

  /** Whatever the interleaving of appends, worker jobs and shutdowns, from a
      fresh memory at most one summary job is ever pending, the flag says
      exactly whether one is, and the running length is the live length. */
  lemma AtMostOneSummaryPending(steps: seq<Step>)
    ensures var m := Run(NewShortTermMemory(), steps);
            && PendingSnapshots(m.queue) <= 1
            && (m.summarizing <==> PendingSnapshots(m.queue) == 1)
            && m.lenHistory == |m.messages|
  {
    RunKeepsValid(NewShortTermMemory(), steps);
  }

  /** While a summary is in flight, appending never queues a second job. */
  lemma NoSecondJobWhileSummarizing(m: ShortTermMemory, user: string, ai: string)
    requires m.summarizing
    ensures AddAiMessage(AddUserMessage(m, user), ai).queue == m.queue
  {
  }

  // ---------------------------------------------------------------------
  // What a summary job removes
  // ---------------------------------------------------------------------

  /** The job at the head of a running worker's queue is a snapshot worth
      summarising, and the summarising call returned. */
  ghost predicate SummaryApplies(m: ShortTermMemory, reply: Call<string>) {
    && m.workerRunning && m.queue != [] && m.queue[0].Snapshot?
    && |m.queue[0].history| > Reserved && reply.Returned?
  }

  /** In a valid memory the prune never runs past the live buffer: exactly
      `len(snapshot) - 4` leading messages go, every message appended after
      the snapshot was taken survives, and the new history is the new
      summary followed by the surviving messages. */
  lemma SummaryKeepsLaterMessages(m: ShortTermMemory, reply: Call<string>)
    requires Valid(m) && SummaryApplies(m, reply)
    ensures var h := m.queue[0].history;
            var r := WorkerStep(m, reply);
            var taken := if m.summary.Some? then |h| - 1 else |h|;
            && |h| - Reserved <= |m.messages|
            && r.messages == m.messages[|h| - Reserved..]
            && taken <= |m.messages|
            && m.messages[taken..] == r.messages[|r.messages| - (|m.messages| - taken)..]
            && GetHistory(r) == [Message(Ai, reply.value)] + r.messages
  {
  }

  /** Without a prior summary, what is summarised is exactly what is pruned. */
  lemma FirstSummaryCoversPrunedMessages(m: ShortTermMemory, reply: Call<string>)
    requires Valid(m) && SummaryApplies(m, reply) && m.summary.None?
    ensures var k := |m.queue[0].history| - Reserved;
            && ToSummarize(m.queue[0].history) == m.messages[..k]
            && WorkerStep(m, reply).messages == m.messages[k..]
  {
  }

  /** With a prior summary the snapshot starts with that summary, so the
      summarised part is the old summary and only `k - 1` live messages,
      while `k` live messages are pruned: the live message just before the
      four reserved entries is dropped without being summarised. */
  lemma LaterSummaryDropsOneUnsummarizedMessage(m: ShortTermMemory, reply: Call<string>)
    requires Valid(m) && SummaryApplies(m, reply) && m.summary.Some?
    ensures var k := |m.queue[0].history| - Reserved;
            && 1 <= k <= |m.messages|
            && ToSummarize(m.queue[0].history) == [m.summary.value] + m.messages[..k - 1]
            && WorkerStep(m, reply).messages == m.messages[k..]
  {
    var h := m.queue[0].history;
    var k := |h| - Reserved;
    assert h == GetHistory(m)[..|h|];
    assert ToSummarize(h) == GetHistory(m)[..k];
    assert GetHistory(m)[..k] == [m.summary.value] + m.messages[..k - 1];
  }

  /** When the worker runs right after the snapshot was taken, the history
      afterwards is the four reserved messages plus the summary on the first
      round, but only three live messages plus the summary once a summary
      already existed. */
  lemma HistoryLengthAfterImmediateSummary(m: ShortTermMemory, reply: Call<string>)
    requires Valid(m) && m.workerRunning && reply.Returned?
    requires m.queue == [Snapshot(GetHistory(m))] && |GetHistory(m)| > Reserved
    ensures m.summary.None? ==> |GetHistory(WorkerStep(m, reply))| == Reserved + 1
    ensures m.summary.Some? ==> |GetHistory(WorkerStep(m, reply))| == Reserved
  {
  }

  // ---------------------------------------------------------------------
  // LongTermMemory.search / get
  // ---------------------------------------------------------------------

  /** One record of the vector store's answer; only its "memory" field is
      read. */
  datatype MemoryRecord = MemoryRecord(memory: string)

  /** `LongTermMemory.search` and `get`, given whether the store was
      initialised and the backend call's outcome (`None` standing for an
      answer without a "results" key): no store, a raising backend or no
      results give []; otherwise the "memory" field of every record, in the
      backend's order. */
  function Retrieve(initialised: bool, backend: Call<Option<seq<MemoryRecord>>>): (r: seq<string>)
    ensures !initialised || backend.Raised? || backend == Returned(None) ==> r == []
    ensures initialised && backend.Returned? && backend.value.Some? ==>
              |r| == |backend.value.value|
              && forall i :: 0 <= i < |r| ==> r[i] == backend.value.value[i].memory
  {
    if !initialised then []
    else match backend
      case Raised => []
      case Returned(None) => []
      case Returned(Some(records)) =>
        seq(|records|, i requires 0 <= i < |records| => records[i].memory)
  }

  /** Retrieval comes back empty exactly when there is no store, the
      backend raised, it had no result list, or the list was empty. */
  lemma RetrieveEmptyIff(initialised: bool, backend: Call<Option<seq<MemoryRecord>>>)
    ensures Retrieve(initialised, backend) == [] <==>
              (!initialised || backend.Raised? || backend == Returned(None) || backend.value.value == [])
  {
    if initialised && backend.Returned? && backend.value.Some? {
      assert |Retrieve(initialised, backend)| == |backend.value.value|;
    }
  }
}

=== FILE: registry.dfy ===
/**
 `UserSessionDB` (chat/modules/database.py): the persistent record of each
 user's counselling stage, a table keyed by user id, modelled as a finite
 map. A stage name is validated after stripping white space and
 upper-casing it, but the name is stored exactly as it was passed.
 */
module Registry {
  import opened Common
  import opened Stages

  type UserId = string

  /** The `user_sessions` table: user id to stored stage name. */
  type Registry = map<UserId, string>

  /** The outcome of a write: the boolean the source returns and the table
      afterwards. */
  datatype Write = Write(ok: bool, db: Registry)

  /** `_assert_session`: the name denotes a stage once stripped and
      upper-cased. */
  predicate ValidStageName(name: string) {
    IsStage(Upper(Strip(name)))
  }

  /** Every canonical stage name is valid. */
  lemma CanonicalNamesAreValid(name: string)
    requires IsStage(name)
    ensures ValidStageName(name)
  {
    var k := StageIndex(name);
    assert !IsSpace(name[0]) && !IsSpace(name[|name| - 1]);
    assert StripLeft(name) == name;
    assert StripRight(name) == name;
    StagesAreUpperCase(name);
  }

  /** `get`: the stored name, or `None` for an unknown user. */
  function Get(db: Registry, user: UserId): (r: Option<string>)
    ensures r.Some? <==> user in db
    ensures r.Some? ==> r.value == db[user]
  {
    if user in db then Some(db[user]) else None
  }

  /** `insert`: refused (false, table unchanged) for an invalid name or a
      user already present; otherwise the raw name is stored for the user
      and nothing else changes. */
  function Insert(db: Registry, user: UserId, name: string): (r: Write)
    ensures r.ok <==> ValidStageName(name) && user !in db
    ensures !r.ok ==> r.db == db
    ensures r.ok ==> Get(r.db, user) == Some(name)
    ensures forall u :: u != user ==> Get(r.db, u) == Get(db, u)
  {
    if !ValidStageName(name) || user in db then Write(false, db)
    else Write(true, db[user := name])
  }

  /** `update`: refused for an invalid name or a user that is not present
      (no row changed); otherwise the user's name is overwritten with the
      raw name. */
  function Update(db: Registry, user: UserId, name: string): (r: Write)
    ensures r.ok <==> ValidStageName(name) && user in db
    ensures !r.ok ==> r.db == db
    ensures r.ok ==> Get(r.db, user) == Some(name)
    ensures forall u :: u != user ==> Get(r.db, u) == Get(db, u)
  {
    if !ValidStageName(name) || user !in db then Write(false, db)
    else Write(true, db[user := name])
  }

  /** `delete`: true exactly when the user was present; afterwards the user
      is unknown and every other user is untouched. */
  function Delete(db: Registry, user: UserId): (r: Write)
    ensures r.ok <==> user in db
    ensures Get(r.db, user) == None
    ensures forall u :: u != user ==> Get(r.db, u) == Get(db, u)
  {
    Write(user in db, db - {user})
  }

  /** A name is stored verbatim: a stage name in any case, padded with a
      blank on each side (" setting "), passes validation, and `get` then
      returns the padded name, not its canonical form. */
  lemma StoresRawName(db: Registry, user: UserId, word: string)
    requires user !in db
    requires |word| > 0 && !IsSpace(word[0]) && !IsSpace(word[|word| - 1])
    requires IsStage(Upper(word))
    ensures var padded := [' '] + word + [' '];
            && Insert(db, user, padded).ok
            && Get(Insert(db, user, padded).db, user) == Some(padded)
            && padded != Upper(Strip(padded))
  {
    StripPadded(word);
  }

  /** Inserting and then deleting a new user leaves the table as it was. */
  lemma InsertThenDelete(db: Registry, user: UserId, name: string)
    requires user !in db && ValidStageName(name)
    ensures Delete(Insert(db, user, name).db, user).db == db
  {
  }
}

=== FILE: router.dfy ===
/**
 Specialist routing (chat/modules/router.py). `Router.ainvoke` asks one
 yes/no question per entry of a fixed catalogue, all at once, and keeps the
 entries answered "1", in catalogue order; if anything raises — one failed
 call inside the gather is enough — the whole answer is the empty list.
 `ClovaRouter` is the older HTTP router: only its history conversion and
 the post-processing of its reply are modelled, the request itself being
 an oracle.
 */
module Router {
  import opened Common
  import opened Utils

  /** The specialist capabilities the router can select. */
  datatype Specialist = Medical | Legacy | Acp | Cultural

  /** The catalogue name of a specialist, as the router returns it. */
  function Name(a: Specialist): string {
    match a
    case Medical => "MEDICAL"
    case Legacy => "LEGACY"
    case Acp => "ACP"
    case Cultural => "CULTURAL"
  }

  /** `Router._states`, in its declared order. */
  const Catalogue: seq<Specialist> := [Medical, Legacy, Acp, Cultural]

  /** The position of a specialist in the catalogue. */
  function CatalogueIndex(a: Specialist): (k: nat)
    ensures k < |Catalogue| && Catalogue[k] == a
  {
    match a
    case Medical => 0
    case Legacy => 1
    case Acp => 2
    case Cultural => 3
  }

  /** The entries of `r` appear in strictly increasing catalogue position:
      `r` is ordered like the catalogue and has no duplicate. */
  ghost predicate InCatalogueOrder(r: seq<Specialist>) {
    forall i, j :: 0 <= i < j < |r| ==> CatalogueIndex(r[i]) < CatalogueIndex(r[j])
  }

  /** Keeps `entries[k]` exactly when `answers[k]` reads as 1. */
  function Select(entries: seq<Specialist>, answers: seq<string>): (r: seq<Specialist>)
    requires |entries| == |answers|
    requires InCatalogueOrder(entries)
    ensures InCatalogueOrder(r)
    ensures |r| <= |entries|
    ensures forall a :: a in r ==> a in entries
    ensures forall k :: 0 <= k < |entries| ==> (entries[k] in r <==> ParseBinary(answers[k]) == 1)
  {
    if |entries| == 0 then []
    else
      var rest := Select(entries[1..], answers[1..]);
      assert forall a :: a in rest ==> CatalogueIndex(entries[0]) < CatalogueIndex(a);
      assert entries[0] !in rest;
      if ParseBinary(answers[0]) == 1 then OrderedCons(entries[0], rest); [entries[0]] + rest else rest
  }

  /** Putting an entry that precedes every entry of an ordered list in
      front of it keeps the list ordered. */
  lemma OrderedCons(x: Specialist, rest: seq<Specialist>)
    requires InCatalogueOrder(rest)
    requires forall a :: a in rest ==> CatalogueIndex(x) < CatalogueIndex(a)
    ensures InCatalogueOrder([x] + rest)
  {
    var r := [x] + rest;
    forall i, j | 0 <= i < j < |r| ensures CatalogueIndex(r[i]) < CatalogueIndex(r[j]) {
      assert r[j] == rest[j - 1];
      if i > 0 {
        assert r[i] == rest[i - 1];
      }
    }
  }

  predicate AllReturned(replies: seq<Call<string>>) {
    forall k :: 0 <= k < |replies| ==> replies[k].Returned?
  }

  function Contents(replies: seq<Call<string>>): (r: seq<string>)
    requires AllReturned(replies)
    ensures |r| == |replies|
    ensures forall k :: 0 <= k < |replies| ==> r[k] == replies[k].value
  {
    seq(|replies|, k requires 0 <= k < |replies| => replies[k].value)
  }

  /** `Router.ainvoke`, given the outcome of the routing call made for each
      catalogue entry (in catalogue order). When every call returned, the
      result holds exactly the entries whose reply's first digit is '1',
      in catalogue order and without duplicates; when any call raised, the
      gather raises and the result is empty. */
  function Route(replies: seq<Call<string>>): (r: seq<Specialist>)
    requires |replies| == |Catalogue|
    ensures !AllReturned(replies) ==> r == []
    ensures AllReturned(replies) ==> forall k :: 0 <= k < |Catalogue| ==>
              (Catalogue[k] in r <==> exists i :: FirstDigitAt(replies[k].value, i) && replies[k].value[i] == '1')
    ensures InCatalogueOrder(r)
    ensures |r| <= |Catalogue|
  {
    if AllReturned(replies) then Select(Catalogue, Contents(replies)) else []
  }

  // ---------------------------------------------------------------------
  // ClovaRouter
  // ---------------------------------------------------------------------

  /** One entry of the `chatHistory` of a Clova request. */
  datatype ClovaMessage = ClovaMessage(role: string, content: string)

  const UserRole: string := "user"
  const AssistantRole: string := "assistant"
  const SystemRole: string := "system"

  /** `role_map.get(msg.type, "user")`. */
  function RoleOf(kind: string): (role: string)
    ensures kind == Human ==> role == UserRole
    ensures kind == Ai ==> role == AssistantRole
    ensures kind == System ==> role == SystemRole
    ensures kind != Human && kind != Ai && kind != System ==> role == UserRole
  {
    if kind == Ai then AssistantRole
    else if kind == System then SystemRole
    else UserRole
  }

  /** `_convert_history_to_clova_format`: one entry per message, same order,
      same content, with the role taken from the message's type. */
  function ConvertHistory(history: seq<Message>): (r: seq<ClovaMessage>)
    ensures |r| == |history|
    ensures forall i :: 0 <= i < |history| ==>
              r[i].content == history[i].content && r[i].role == RoleOf(history[i].kind)
  {
    seq(|history|, i requires 0 <= i < |history| => ClovaMessage(RoleOf(history[i].kind), history[i].content))
  }

  /** Conversion works message by message: converting a concatenation is
      concatenating the conversions, and every role is one of the three
      Clova roles. */
  lemma ConvertHistoryIsPerMessage(a: seq<Message>, b: seq<Message>)
    ensures ConvertHistory(a + b) == ConvertHistory(a) + ConvertHistory(b)
    ensures forall m :: m in ConvertHistory(a) ==> m.role in {UserRole, AssistantRole, SystemRole}
  {
  }

  /** The body of a Clova routing request. */
  datatype ClovaRequest = ClovaRequest(query: string, chatHistory: seq<ClovaMessage>)

  /** The request `ClovaRouter.invoke` sends: an empty history is sent as an
      empty `chatHistory`. */
  function MakeClovaRequest(query: string, history: seq<Message>): (r: ClovaRequest)
    ensures r.query == query
    ensures r.chatHistory == [] <==> history == []
    ensures r.chatHistory == ConvertHistory(history)
  {
    ClovaRequest(query, if history != [] then ConvertHistory(history) else [])
  }

  const HttpOk: int := 200
  const NoResultKey: string := "Error: No result key"
  const ErrorResult: string := "Error"

  /** What `_send_request` handed back: the HTTP status and, on success, the
      decoded JSON object (`None` on any failure). */
  datatype HttpReply = HttpReply(status: int, body: Option<map<string, string>>)

  /** The post-processing of `ClovaRouter.invoke`: a 200 reply with a
      non-empty body yields its "result" field, or the fixed "Error: No
      result key" when that field is missing; every other reply — a failed
      status, no body, or an empty JSON object — yields "Error". */
  function ClovaResult(reply: HttpReply): (r: string)
    ensures reply.status != HttpOk || reply.body.None? ==> r == ErrorResult
    ensures reply.status == HttpOk && reply.body.Some? && reply.body.value == map[] ==> r == ErrorResult
    ensures reply.status == HttpOk && reply.body.Some? && "result" in reply.body.value ==>
              r == reply.body.value["result"]
    ensures (reply.status == HttpOk && reply.body.Some? && reply.body.value != map[]
             && "result" !in reply.body.value) ==> r == NoResultKey
  {
    if reply.status == HttpOk && reply.body.Some? && |reply.body.value| > 0 then
      var res := reply.body.value;
      if "result" in res then res["result"] else NoResultKey
    else
      ErrorResult
  }

  /** The router's answer is always one of three things: "Error", the
      no-result-key text, or the reply's "result" field; any other text can
      only have come from the "result" field of a successful reply. */
  lemma ClovaResultOutcomes(reply: HttpReply)
    ensures var r := ClovaResult(reply);
            || r == ErrorResult
            || r == NoResultKey
            || (reply.body.Some? && "result" in reply.body.value && r == reply.body.value["result"])
    ensures var r := ClovaResult(reply);
            r != ErrorResult && r != NoResultKey ==>
              reply.status == HttpOk && reply.body.Some? && "result" in reply.body.value
              && r == reply.body.value["result"]
  {
  }
}

=== FILE: scoring.dfy ===
/**
 The AAQ-II readiness score of chat/modules/scoring.py. Seven fixed probe
 questions are each put to a language model together with what is known
 about the user; every reply is read as a 1..7 answer, with 0 standing for
 "abstain" (an unreadable reply or a failed call). The seven answers are
 aggregated into one score, and a user is ready for the next counselling
 stage when that score lies in the band [7, 18).
 */
module Scoring {
  import opened Common
  import opened Utils

  /** The number of probe questions of the questionnaire. */
  const QuestionCount: nat := 7
  /** The lowest and the largest answer a probe can have. */
  const MinAnswer: int := 1
  const MaxAnswer: int := 7
  /** The answer recorded when a probe abstains. */
  const Abstain: int := 0
  /** The aggregate reported when every probe abstains. */
  const Indeterminate: int := -1
  /** The half-open readiness band [ReadyLow, ReadyHigh). */
  const ReadyLow: int := 7
  const ReadyHigh: int := 18

  /** `_get_score`, with the model's reply as an oracle: the reply's first
      digit when it is 1..7; 0 when the reply has no such first digit or
      the call raised. */
  function GetScore(reply: Call<string>): (r: int)
    ensures Abstain <= r <= MaxAnswer
    ensures reply.Raised? ==> r == Abstain
    ensures reply.Returned? ==> forall i :: FirstDigitAt(reply.value, i) ==>
              r == (if MinAnswer <= DigitValue(reply.value[i]) <= MaxAnswer
                    then DigitValue(reply.value[i]) else Abstain)
    ensures r != Abstain ==> reply.Returned? && exists i :: FirstDigitAt(reply.value, i) && r == DigitValue(reply.value[i])
  {
    match reply
    case Raised => Abstain
    case Returned(text) => ExtractInt(text, MinAnswer, MaxAnswer, Abstain)
  }

  function Sum(s: seq<int>): int {
    if |s| == 0 then 0 else s[0] + Sum(s[1..])
  }

  /** `scores.count(0)`. */
  function CountZeros(s: seq<int>): nat {
    if |s| == 0 then 0 else (if s[0] == 0 then 1 else 0) + CountZeros(s[1..])
  }

  function Abs(x: int): nat {
    if x < 0 then -x else x
  }

  lemma DivOfNaturals(x: int, y: int)
    requires x >= 0 && y > 0
    ensures x / y >= 0
  {
  }

  /** Python's `int(a / b)`: the quotient truncated toward zero. */
  function TruncDiv(a: int, b: int): (q: int)
    requires b != 0
    ensures Abs(q) == Abs(a) / Abs(b)
    ensures (a >= 0 && b > 0) || (a <= 0 && b < 0) ==> q >= 0
    ensures (a >= 0 && b < 0) || (a <= 0 && b > 0) ==> q <= 0
  {
    var m := Abs(a) / Abs(b);
    DivOfNaturals(Abs(a), Abs(b));
    if (a >= 0 && b > 0) || (a <= 0 && b < 0) then m else -m
  }

  /** `_get_overall_score`: -1 when the count of non-abstaining answers,
      computed as `7 - scores.count(0)`, is zero; otherwise the sum scaled
      by 7 and divided by that count, truncated. For a non-negative sum and
      a positive count the result is the largest `r` with
      `r * count <= sum * 7`. */
  function OverallScore(scores: seq<int>): (r: int)
    ensures CountZeros(scores) == QuestionCount ==> r == Indeterminate
    ensures CountZeros(scores) < QuestionCount && Sum(scores) >= 0 ==>
              var n := QuestionCount - CountZeros(scores);
              r * n <= Sum(scores) * 7 < (r + 1) * n
  {
    var nonZero := QuestionCount - CountZeros(scores);
    if nonZero == 0 then Indeterminate else TruncDiv(Sum(scores) * 7, nonZero)
  }

  predicate ValidAnswers(scores: seq<int>) {
    forall i :: 0 <= i < |scores| ==> Abstain <= scores[i] <= MaxAnswer
  }

  predicate AllAbstain(scores: seq<int>) {
    forall i :: 0 <= i < |scores| ==> scores[i] == Abstain
  }

  /** Each answer is 0..7, so the sum lies between the number of
      non-abstaining answers and seven times that number. */
  lemma {:induction false} SumBounds(s: seq<int>)
    requires ValidAnswers(s)
    ensures |s| - CountZeros(s) <= Sum(s) <= 7 * (|s| - CountZeros(s))
    ensures CountZeros(s) == |s| <==> AllAbstain(s)
  {
    if |s| > 0 {
      SumBounds(s[1..]);
      if AllAbstain(s[1..]) && s[0] == Abstain {
        assert AllAbstain(s);
      }
      if !AllAbstain(s[1..]) {
        var i :| 0 <= i < |s[1..]| && s[1..][i] != Abstain;
        assert s[i + 1] != Abstain;
      }
    }
  }

  lemma DivInBand(a: int, n: int)
    requires n > 0 && 7 * n <= a <= 49 * n
    ensures 7 <= a / n <= 49
  {
    var q := a / n;
    assert a == n * q + a % n && 0 <= a % n < n;
  }

  /** For seven answers in 0..7, the aggregate is -1 exactly when every
      answer abstains, and otherwise lies in [7, 49]. */
  lemma OverallScoreRange(scores: seq<int>)
    requires |scores| == QuestionCount && ValidAnswers(scores)
    ensures OverallScore(scores) == Indeterminate <==> AllAbstain(scores)
    ensures OverallScore(scores) != Indeterminate ==> 7 <= OverallScore(scores) <= 49
  {
    SumBounds(scores);
    var n := QuestionCount - CountZeros(scores);
    if n > 0 {
      DivInBand(Sum(scores) * 7, n);
    }
  }

  /** Seven answers of 7 give the maximum, 49; seven abstentions give -1. */
  lemma OverallScoreExtremes()
    ensures OverallScore([7, 7, 7, 7, 7, 7, 7]) == 49
    ensures OverallScore([0, 0, 0, 0, 0, 0, 0]) == Indeterminate
  {
    var sevens := [7, 7, 7, 7, 7, 7, 7];
    assert CountZeros(sevens) == 0;
    assert Sum(sevens) == 49;
  }

  // ---------------------------------------------------------------------
  // The aggregate depends only on the multiset of answers.
  // ---------------------------------------------------------------------

  lemma {:induction false} SumAppend(a: seq<int>, b: seq<int>)
    ensures Sum(a + b) == Sum(a) + Sum(b)
  {
    if |a| == 0 {
      assert a + b == b;
    } else {
      assert (a + b)[0] == a[0];
      assert (a + b)[1..] == a[1..] + b;
      SumAppend(a[1..], b);
    }
  }

  lemma {:induction false} SumPermutation(a: seq<int>, b: seq<int>)
    requires multiset(a) == multiset(b)
    ensures Sum(a) == Sum(b)
    decreases |a|
  {
    if |a| == 0 {
      assert |b| == |multiset(b)| == 0;
    } else {
      var x := a[0];
      assert x in multiset(b);
      var k :| 0 <= k < |b| && b[k] == x;
      var pre, post := b[..k], b[k + 1..];
      var rest := pre + post;
      assert b == pre + ([x] + post);
      assert a == [x] + a[1..];
      assert multiset(a[1..]) == multiset(a) - multiset{x};
      assert multiset(rest) == multiset(b) - multiset{x};
      SumPermutation(a[1..], rest);
      SumAppend(pre, [x] + post);
      assert ([x] + post)[1..] == post;
      SumAppend(pre, post);
    }
  }

  lemma {:induction false} CountZerosIsMultiplicity(s: seq<int>)
    ensures CountZeros(s) == multiset(s)[0]
  {
    if |s| > 0 {
      assert s == [s[0]] + s[1..];
      CountZerosIsMultiplicity(s[1..]);
    }
  }

  /** Reordering the answers never changes the aggregate. */
  lemma OverallScoreOrderIndependent(a: seq<int>, b: seq<int>)
    requires multiset(a) == multiset(b)
    ensures OverallScore(a) == OverallScore(b)
  {
    SumPermutation(a, b);
    CountZerosIsMultiplicity(a);
    CountZerosIsMultiplicity(b);
  }

  // ---------------------------------------------------------------------
  // is_ready_to_accept
  // ---------------------------------------------------------------------

  datatype Readiness = Readiness(ready: bool, score: int)

  /** One answer per probe question, in question order. */
  function Answers(replies: seq<Call<string>>): (r: seq<int>)
    ensures |r| == |replies| && ValidAnswers(r)
    ensures forall i :: 0 <= i < |replies| ==> r[i] == GetScore(replies[i])
  {
    seq(|replies|, i requires 0 <= i < |replies| => GetScore(replies[i]))
  }

  /** `is_ready_to_accept`, given the model's reply to each of the seven
      probes: the aggregate is -1 exactly when every probe abstained (in
      particular when every call raised), and otherwise lies in [7, 49];
      the user is ready exactly when it lies in [7, 18), so an
      indeterminate aggregate is never ready. */
  function IsReadyToAccept(replies: seq<Call<string>>): (r: Readiness)
    requires |replies| == QuestionCount
    ensures r.score == OverallScore(Answers(replies))
    ensures r.ready <==> ReadyLow <= r.score < ReadyHigh
    ensures r.score == Indeterminate <==> forall i :: 0 <= i < |replies| ==> GetScore(replies[i]) == Abstain
    ensures r.score == Indeterminate || 7 <= r.score <= 49
    ensures (forall i :: 0 <= i < |replies| ==> replies[i].Raised?) ==> r.score == Indeterminate && !r.ready
  {
    var answers := Answers(replies);
    OverallScoreRange(answers);
    var overall := OverallScore(answers);
    Readiness(ReadyLow <= overall < ReadyHigh, overall)
  }

  /** The verdict depends only on which answers were given, not on which
      probe gave them. */
  lemma ReadinessOrderIndependent(a: seq<Call<string>>, b: seq<Call<string>>)
    requires |a| == QuestionCount && |b| == QuestionCount
    requires multiset(Answers(a)) == multiset(Answers(b))
    ensures IsReadyToAccept(a) == IsReadyToAccept(b)
  {
    OverallScoreOrderIndependent(Answers(a), Answers(b));
  }
}

=== FILE: server.dfy ===
/**
 The request handlers of chat/main.py as functions over the server state —
 the in-memory session map, the stage registry and the per-session
 short-term memories — with every model, vector-store and database
 collaborator supplied as an oracle value. Work the source defers to a
 background task (recording a turn, reconciling the stored stage) is
 returned as a pending value and applied by its own function.
 */
module Server {
  import opened Common
  import opened Utils
  import opened Stages
  import opened Router
  import opened Memory
  import opened Agents
  import opened Scoring
  import R = Registry

  /** `SessionContext`: whose session it is and its current stage. */
  datatype SessionContext = SessionContext(userId: string, stage: string)

  datatype ServerState = ServerState(
    sessions: map<string, SessionContext>,   // session_store
    db: R.Registry,                          // user_session_db
    stm: SessionMemories                     // context_agent.stm
  )

  const Ok: int := 200
  const BadRequest: int := 400
  const NotFound: int := 404
  const InternalError: int := 500

  /** The sessions the server knows all have a short-term memory, and every
      short-term memory keeps its invariant. */
  ghost predicate ServerValid(s: ServerState) {
    && s.sessions.Keys <= s.stm.Keys
    && forall k :: k in s.stm ==> Valid(s.stm[k])
  }

  // ---------------------------------------------------------------------
  // start_session
  // ---------------------------------------------------------------------

  datatype Started = Started(status: int, server: ServerState, sessionId: string)

  /** `start_session`, with the two uuids it may draw as oracles. A first id
      already used by the same user is refused with 400; one used by another
      user is replaced by the second id, unchecked. A user without a stored
      stage starts in SETTING, which is inserted; otherwise the stored stage
      is used and the registry is not written. The session gets a
      short-term memory unless one already exists under that id. */
  function StartSession(s: ServerState, userId: string, id1: string, id2: string): (r: Started)
    ensures id1 in s.sessions && s.sessions[id1].userId == userId <==> r.status == BadRequest
    ensures r.status == BadRequest ==> r.server == s
    ensures r.status != BadRequest ==>
              && r.status == Ok
              && r.sessionId == (if id1 in s.sessions then id2 else id1)
              && r.sessionId in r.server.sessions
              && r.server.stm == AddSession(s.stm, r.sessionId, false)
              && r.server.sessions == s.sessions[r.sessionId := r.server.sessions[r.sessionId]]
              && r.server.sessions[r.sessionId].userId == userId
    ensures r.status == Ok && userId !in s.db ==>
              r.server.sessions[r.sessionId].stage == Setting && R.Get(r.server.db, userId) == Some(Setting)
              && forall u :: u != userId ==> R.Get(r.server.db, u) == R.Get(s.db, u)
    ensures r.status == Ok && userId in s.db ==>
              r.server.sessions[r.sessionId].stage == s.db[userId] && r.server.db == s.db
  {
    if id1 in s.sessions && s.sessions[id1].userId == userId then
      Started(BadRequest, s, id1)
    else
      var id := if id1 in s.sessions then id2 else id1;
      var stored := R.Get(s.db, userId);
      var stage := if stored.None? then Setting else stored.value;
      R.CanonicalNamesAreValid(Setting);
      var db := if stored.None? then R.Insert(s.db, userId, stage).db else s.db;
      var server := ServerState(s.sessions[id := SessionContext(userId, stage)], db,
                                AddSession(s.stm, id, false));
      Started(Ok, server, id)
  }

  lemma StartSessionKeepsValid(s: ServerState, userId: string, id1: string, id2: string)
    requires ServerValid(s)
    ensures ServerValid(StartSession(s, userId, id1, id2).server)
  {
  }

  // ---------------------------------------------------------------------
  // chat
  // ---------------------------------------------------------------------

  /** What the collaborators of one turn answer. */
  datatype TurnOracles = TurnOracles(
    userInfo: seq<string>,                // context_agent.get_ltm(user, message, k=3)
    escalation: Call<string>,             // the escalation agent's call
    monitor: Call<string>,                // the monitor agent's call
    routing: seq<Call<string>>,           // one routing call per catalogue entry
    gathered: Call<seq<Call<string>>>,    // the specialist gather
    completion: ChunkStream               // the counsellor's streaming call
  )

  /** The arguments of the background `add_message` task. */
  datatype TurnRecord = TurnRecord(sessionId: string, userId: string, userMsg: string, aiMsg: string)

  /** The outcome of one `chat` request: the status, the state afterwards
      (only a stage change is immediate), the chunks streamed to the client,
      whether the monitor was consulted, the counsellor prompt if one was
      sent, and the pending turn record, if any. */
  datatype Turn = Turn(
    status: int, server: ServerState, chunks: seq<string>,
    monitorCalled: bool, prompt: Option<CounselorPrompt>, record: Option<TurnRecord>)

  /** The single chunk of the dummy mode. */
  function DummyReply(userMsg: string): string {
    "INPUT: '" + TrimStr(userMsg, 30) + "'"
  }

  /** The chunks that `if chunk:` lets through: the non-empty ones, in
      their order and with their multiplicity. */
  function NonEmptyChunks(chunks: seq<string>): (r: seq<string>)
    ensures |r| == |Answered(chunks)|
    ensures forall i :: 0 <= i < |r| ==> r[i] != ""
  {
    if |chunks| == 0 then []
    else
      var n := |chunks| - 1;
      var prefix := NonEmptyChunks(chunks[..n]);
      var last := chunks[n];
      assert Answered(chunks) == Answered(chunks[..n]) + (if last != "" then [n] else []);
      if last != "" then prefix + [last] else prefix
  }

  /** The i-th forwarded chunk is the stream's i-th non-empty chunk, so
      order and repetitions are kept. */
  lemma {:induction false} NonEmptyChunksInOrder(chunks: seq<string>)
    ensures forall i :: 0 <= i < |NonEmptyChunks(chunks)| ==>
              NonEmptyChunks(chunks)[i] == chunks[Answered(chunks)[i]]
  {
    if |chunks| > 0 {
      var n := |chunks| - 1;
      NonEmptyChunksInOrder(chunks[..n]);
      assert Answered(chunks) == Answered(chunks[..n]) + (if chunks[n] != "" then [n] else []);
      assert forall k :: 0 <= k < n ==> chunks[..n][k] == chunks[k];
    }
  }

  /** Every non-empty chunk gets through and nothing else does; a stream
      without empty chunks passes unchanged. */
  lemma NonEmptyChunksMembers(chunks: seq<string>)
    ensures forall c :: c in chunks && c != "" ==> c in NonEmptyChunks(chunks)
    ensures forall c :: c in NonEmptyChunks(chunks) ==> c in chunks
    ensures (forall i :: 0 <= i < |chunks| ==> chunks[i] != "") ==> NonEmptyChunks(chunks) == chunks
  {
    var r := NonEmptyChunks(chunks);
    var kept := Answered(chunks);
    NonEmptyChunksInOrder(chunks);
    forall c | c in chunks && c != "" ensures c in r {
      var k :| 0 <= k < |chunks| && chunks[k] == c;
      assert k in kept;
      var i :| 0 <= i < |kept| && kept[i] == k;
      assert r[i] == c;
    }
    if forall i :: 0 <= i < |chunks| ==> chunks[i] != "" {
      AnsweredAllIsIdentity(chunks);
    }
  }

  /** Dropping the empty chunks does not change the text they make up, so
      `full_response` is the whole stream's text. */
  lemma {:induction false} NonEmptyChunksKeepText(chunks: seq<string>)
    ensures Concat(NonEmptyChunks(chunks)) == Concat(chunks)
  {
    if |chunks| > 0 {
      var n := |chunks| - 1;
      NonEmptyChunksKeepText(chunks[..n]);
      var prefix := NonEmptyChunks(chunks[..n]);
      if chunks[n] != "" {
        assert (prefix + [chunks[n]])[..|prefix|] == prefix;
      } else {
        assert Concat(chunks) == Concat(chunks[..n]) + "";
      }
    }
  }

  function UserInfoText(info: seq<string>): string {
    Join(seq(|info|, i requires 0 <= i < |info| => "- " + info[i]), "\n")
  }

  /** `chat` and its event generator. An unknown session fails with 404
      and changes nothing. In dummy mode one fixed chunk is streamed and no
      turn is recorded. When the escalation check says 1, the only chunk is
      the escalation message: the monitor is not consulted, no prompt is
      sent, the stage stays, and that message is recorded as the reply.
      Otherwise the stage moves at most one step, through
      `to_next_session`, when the monitor says so; the counsellor's
      non-empty chunks are streamed; and their concatenation is recorded. */
  function Chat(s: ServerState, sessionId: string, message: string, dummy: bool, o: TurnOracles): (r: Turn)
    requires |o.routing| == |Catalogue|
    requires o.gathered.Returned? ==> |o.gathered.value| == |Route(o.routing)|
    ensures sessionId !in s.sessions <==> r.status == NotFound
    ensures sessionId in s.sessions ==> r.status == Ok
    ensures r.status == NotFound ==> r.server == s && r.chunks == [] && r.record.None?
    ensures r.server.db == s.db && r.server.stm == s.stm
    ensures r.server.sessions.Keys == s.sessions.Keys
    ensures forall k :: k in s.sessions && k != sessionId ==> r.server.sessions[k] == s.sessions[k]
    ensures r.status == Ok && dummy ==>
              r.chunks == [DummyReply(Strip(message))] && r.record.None? && r.server == s
    ensures r.status == Ok && !dummy && EscalationDecide(o.escalation) == 1 ==>
              && r.chunks == [EscalationMessage] && r.server == s
              && !r.monitorCalled && r.prompt.None?
              && r.record == Some(TurnRecord(sessionId, s.sessions[sessionId].userId, Strip(message), EscalationMessage))
    ensures r.status == Ok && !dummy && EscalationDecide(o.escalation) == 0 ==>
              r.record.Some? && r.record.value.aiMsg == Concat(r.chunks)
  {
    if sessionId !in s.sessions then
      Turn(NotFound, s, [], false, None, None)
    else
      var userMsg := Strip(message);
      var ctx := s.sessions[sessionId];
      var shouldStop := EscalationDecide(o.escalation);
      if dummy then
        Turn(Ok, s, [DummyReply(userMsg)], false, None, None)
      else if shouldStop == 1 then
        Turn(Ok, s, [EscalationMessage], false, None,
             Some(TurnRecord(sessionId, ctx.userId, userMsg, EscalationMessage)))
      else
        Counsel(s, sessionId, userMsg, o)
  }

  /** The non-escalated branch of the event generator: the monitor's
      verdict may move the session one stage on, then the counsellor's
      non-empty chunks are streamed and their concatenation recorded. */
  function Counsel(s: ServerState, sessionId: string, userMsg: string, o: TurnOracles): (r: Turn)
    requires sessionId in s.sessions
    requires |o.routing| == |Catalogue|
    requires o.gathered.Returned? ==> |o.gathered.value| == |Route(o.routing)|
    ensures var ctx := s.sessions[sessionId];
            var verdict := MonitorDecide(ctx.stage, o.monitor);
            var stage := if verdict.advance then ToNextSession(ctx.stage) else ctx.stage;
            && r.status == Ok
            && r.server == WithStage(s, sessionId, stage)
            && r.monitorCalled == verdict.calledModel
            && (forall i :: 0 <= i < |r.chunks| ==> r.chunks[i] != "")
            && r.record == Some(TurnRecord(sessionId, ctx.userId, userMsg, Concat(r.chunks)))
  {
    var ctx := s.sessions[sessionId];
    var verdict := MonitorDecide(ctx.stage, o.monitor);
    var stage := if verdict.advance then ToNextSession(ctx.stage) else ctx.stage;
    var history := FormatChatHistory(GetStm(s.stm, sessionId));
    var composed := CounselorStream(userMsg, history, UserInfoText(o.userInfo), stage,
                                    o.routing, o.gathered, o.completion);
    var streamed := NonEmptyChunks(composed.chunks);
    Turn(Ok, WithStage(s, sessionId, stage), streamed, verdict.calledModel,
         composed.prompt, Some(TurnRecord(sessionId, ctx.userId, userMsg, Concat(streamed))))
  }

  /** The session map with one session moved to `stage`; the database,
      the memories and every other session are left alone. */
  function WithStage(s: ServerState, sessionId: string, stage: string): (r: ServerState)
    requires sessionId in s.sessions
    ensures r.db == s.db && r.stm == s.stm
    ensures r.sessions.Keys == s.sessions.Keys
    ensures r.sessions[sessionId] == SessionContext(s.sessions[sessionId].userId, stage)
    ensures forall k :: k in s.sessions && k != sessionId ==> r.sessions[k] == s.sessions[k]
  {
    s.(sessions := s.sessions[sessionId := s.sessions[sessionId].(stage := stage)])
  }

  /** A turn the escalation check lets through: the session keeps its user;
      its stage changes only when the monitor says so, and then to
      `to_next_session` of it; the monitor is consulted exactly when the
      stage is neither ACCEPTANCE nor REMINISCENCE; no streamed chunk is
      empty; and the recorded reply is everything streamed. */
  lemma CounselledTurn(s: ServerState, sessionId: string, message: string, o: TurnOracles)
    requires |o.routing| == |Catalogue|
    requires o.gathered.Returned? ==> |o.gathered.value| == |Route(o.routing)|
    requires sessionId in s.sessions && EscalationDecide(o.escalation) == 0
    ensures var r := Chat(s, sessionId, message, false, o);
            var old_stage := s.sessions[sessionId].stage;
            var new_stage := r.server.sessions[sessionId].stage;
            && r.status == Ok
            && r.server.sessions[sessionId].userId == s.sessions[sessionId].userId
            && new_stage == (if MonitorDecide(old_stage, o.monitor).advance then ToNextSession(old_stage) else old_stage)
            && r.server == WithStage(s, sessionId, new_stage)
            && (new_stage == old_stage || new_stage == ToNextSession(old_stage))
            && (new_stage != old_stage ==> MonitorDecide(old_stage, o.monitor).advance)
            && (r.monitorCalled <==> Upper(old_stage) != Acceptance && Upper(old_stage) != Reminiscence)
            && (forall i :: 0 <= i < |r.chunks| ==> r.chunks[i] != "")
            && r.record == Some(TurnRecord(sessionId, s.sessions[sessionId].userId, Strip(message), Concat(r.chunks)))
            && var c := CounselorStream(Strip(message), FormatChatHistory(GetStm(s.stm, sessionId)),
                                        UserInfoText(o.userInfo), new_stage, o.routing, o.gathered, o.completion);
               && r.chunks == NonEmptyChunks(c.chunks)
               && r.prompt == c.prompt
  {
  }

  /** On a session whose stage is one of the five, a turn leaves it on a
      stage that is the same or exactly the next one. */
  lemma TurnAdvancesAtMostOneStep(s: ServerState, sessionId: string, message: string, dummy: bool, o: TurnOracles)
    requires |o.routing| == |Catalogue|
    requires o.gathered.Returned? ==> |o.gathered.value| == |Route(o.routing)|
    requires sessionId in s.sessions && IsStage(s.sessions[sessionId].stage)
    ensures var r := Chat(s, sessionId, message, dummy, o);
            var before := StageIndex(s.sessions[sessionId].stage);
            && IsStage(r.server.sessions[sessionId].stage)
            && (StageIndex(r.server.sessions[sessionId].stage) == before
                || StageIndex(r.server.sessions[sessionId].stage) == before + 1)
  {
    AdvanceIsOneStep(s.sessions[sessionId].stage);
  }

  /** A turn in which nothing is flagged, nothing advances and nothing is
      routed streams exactly the counsellor's non-empty chunks, keeps the
      stage and records one turn. */
  lemma QuietTurn(s: ServerState, sessionId: string, message: string, o: TurnOracles)
    requires |o.routing| == |Catalogue|
    requires o.gathered.Returned? ==> |o.gathered.value| == |Route(o.routing)|
    requires sessionId in s.sessions
    requires EscalationDecide(o.escalation) == 0
    requires !MonitorDecide(s.sessions[sessionId].stage, o.monitor).advance
    requires Route(o.routing) == [] && !o.completion.raised
    ensures var r := Chat(s, sessionId, message, false, o);
            && r.server == s
            && r.chunks == NonEmptyChunks(o.completion.chunks)
            && r.prompt.Some? && r.prompt.value.specialistInfo == ""
            && r.record.Some? && r.record.value.aiMsg == Concat(r.chunks)
  {
    assert o.completion.chunks + [] == o.completion.chunks;
  }

  /** The background `add_message` task of a turn. */
  function RecordTurn(s: ServerState, rec: TurnRecord): (r: ServerState)
    ensures r.sessions == s.sessions && r.db == s.db
    ensures r.stm == AddMessage(s.stm, rec.sessionId, rec.userMsg, rec.aiMsg)
    ensures r.stm.Keys == s.stm.Keys + {rec.sessionId}
    ensures forall k :: k in s.stm && k != rec.sessionId ==> r.stm[k] == s.stm[k]
    ensures GetStm(r.stm, rec.sessionId)
            == GetStm(s.stm, rec.sessionId) + [Message(Human, rec.userMsg), Message(Ai, rec.aiMsg)]
  {
    s.(stm := AddMessage(s.stm, rec.sessionId, rec.userMsg, rec.aiMsg))
  }

  lemma ChatKeepsValid(s: ServerState, sessionId: string, message: string, dummy: bool, o: TurnOracles)
    requires |o.routing| == |Catalogue|
    requires o.gathered.Returned? ==> |o.gathered.value| == |Route(o.routing)|
    requires ServerValid(s)
    ensures var r := Chat(s, sessionId, message, dummy, o);
            && ServerValid(r.server)
            && (r.record.Some? ==> ServerValid(RecordTurn(r.server, r.record.value)))
  {
    var r := Chat(s, sessionId, message, dummy, o);
    if r.record.Some? {
      var rec := r.record.value;
      AddMessageKeepsValid(r.server.stm, rec.sessionId, rec.userMsg, rec.aiMsg);
    }
  }

  // ---------------------------------------------------------------------
  // end_session and update_user_counseling_session
  // ---------------------------------------------------------------------

  /** The arguments of the background `update_user_counseling_session` task. */
  datatype Reconciliation = Reconciliation(userId: string, stage: string)

  datatype Ended = Ended(status: int, server: ServerState, pending: Option<Reconciliation>)

  /** `end_session`: an unknown session fails with 404 and changes nothing.
      Otherwise the session leaves the session map, its short-term memory is
      shut down and dropped, and reconciliation is scheduled with the
      session's user and final stage. Should the memory be missing, the
      removal raises after the session was popped, and nothing is
      scheduled. */
  function EndSession(s: ServerState, sessionId: string): (r: Ended)
    ensures sessionId !in s.sessions <==> r.status == NotFound
    ensures r.status == NotFound ==> r.server == s && r.pending.None?
    ensures r.status != NotFound ==>
              && r.server.sessions == s.sessions - {sessionId}
              && r.server.db == s.db
              && (r.status == Ok <==> sessionId in s.stm)
              && (r.status == Ok ==>
                    (r.server.stm == s.stm - {sessionId}
                     && r.pending == Some(Reconciliation(s.sessions[sessionId].userId, s.sessions[sessionId].stage))))
              && (r.status != Ok ==> r.status == InternalError && r.pending.None?)
  {
    if sessionId !in s.sessions then Ended(NotFound, s, None)
    else
      var ctx := s.sessions[sessionId];
      var sessions := s.sessions - {sessionId};
      match RemoveSession(s.stm, sessionId)
      case None => Ended(InternalError, s.(sessions := sessions), None)
      case Some(stm) => Ended(Ok, ServerState(sessions, s.db, stm), Some(Reconciliation(ctx.userId, ctx.stage)))
  }

  /** On a valid server, ending a known session always succeeds, and the
      server stays valid. */
  lemma EndSessionSucceeds(s: ServerState, sessionId: string)
    requires ServerValid(s) && sessionId in s.sessions
    ensures EndSession(s, sessionId).status == Ok
    ensures ServerValid(EndSession(s, sessionId).server)
  {
  }

  /** `update_user_counseling_session`, with the seven readiness replies as
      oracles. The stored stage is read first. A session that ended in
      ACCEPTANCE (exact spelling) and scores ready writes REMINISCENCE;
      then, if the value read first differs from the session's stage, the
      session's stage is written — after, and over, that upgrade. Only the
      user's own row is touched, and an unknown user's row is never
      created. */
  function Reconcile(db: R.Registry, job: Reconciliation, aaq: seq<Call<string>>): (r: R.Registry)
    requires |aaq| == QuestionCount
    ensures forall u :: u != job.userId ==> R.Get(r, u) == R.Get(db, u)
    ensures job.userId !in db ==> r == db
    ensures job.stage == Acceptance && IsReadyToAccept(aaq).ready && R.Get(db, job.userId) == Some(Acceptance) ==>
              R.Get(r, job.userId) == Some(Reminiscence)
    ensures R.Get(db, job.userId) != Some(job.stage) && job.userId in db && R.ValidStageName(job.stage) ==>
              R.Get(r, job.userId) == Some(job.stage)
    ensures (job.stage != Acceptance || !IsReadyToAccept(aaq).ready) && R.Get(db, job.userId) == Some(job.stage) ==>
              r == db
  {
    var previous := R.Get(db, job.userId);
    R.CanonicalNamesAreValid(Reminiscence);
    var upgraded := if job.stage == Acceptance && IsReadyToAccept(aaq).ready
                    then R.Update(db, job.userId, Reminiscence).db else db;
    if previous != Some(job.stage) then R.Update(upgraded, job.userId, job.stage).db else upgraded
  }

  /** A session stage the registry would refuse is never written: the
      registry comes back exactly as it was, whatever the readiness replies
      say. */
  lemma ReconcileIgnoresInvalidStage(db: R.Registry, job: Reconciliation, aaq: seq<Call<string>>)
    requires |aaq| == QuestionCount && !R.ValidStageName(job.stage)
    ensures Reconcile(db, job, aaq) == db
  {
    R.CanonicalNamesAreValid(Acceptance);
  }

  /** The ordering quirk: a user who reached ACCEPTANCE during the session
      (the registry still says EMOTION) and scores ready is stored as
      ACCEPTANCE, not REMINISCENCE — the later write undoes the upgrade. A
      user already stored as ACCEPTANCE is upgraded. */
  lemma ReconcileOverwritesUpgrade(db: R.Registry, userId: string, aaq: seq<Call<string>>)
    requires |aaq| == QuestionCount && IsReadyToAccept(aaq).ready
    requires userId in db
    ensures R.Get(Reconcile(db[userId := Emotion], Reconciliation(userId, Acceptance), aaq), userId)
            == Some(Acceptance)
    ensures R.Get(Reconcile(db[userId := Acceptance], Reconciliation(userId, Acceptance), aaq), userId)
            == Some(Reminiscence)
  {
    R.CanonicalNamesAreValid(Acceptance);
    R.CanonicalNamesAreValid(Reminiscence);
  }
}

=== FILE: stages.dfy ===
/**
 The counselling stage graph: the five stage names, the forward transition
 table of `MonitorAgent.session_transition` (chat/modules/agents.py) and the
 per-stage instruction lookup of `CounselorAgent.stream`. Stage names are
 plain strings in the source, and so they are here: the table is consulted
 with the upper-cased name, and a name it does not know comes back as is.
 */
module Stages {
  import opened Common

  const Setting: string := "SETTING"
  const Perception: string := "PERCEPTION"
  const Emotion: string := "EMOTION"
  const Acceptance: string := "ACCEPTANCE"
  const Reminiscence: string := "REMINISCENCE"

  /** The five stages in the only order the conversation may take them. */
  const Order: seq<string> := [Setting, Perception, Emotion, Acceptance, Reminiscence]

  /** The stages that still have a successor. */
  const Advancing: seq<string> := Order[..4]

  /** `session_transition`: each stage but the last maps to the next one. */
  const Transition: map<string, string> :=
    map[Setting := Perception, Perception := Emotion, Emotion := Acceptance, Acceptance := Reminiscence]

  predicate IsStage(name: string) {
    name in Order
  }

  /** The position of a stage in `Order`. */
  function StageIndex(name: string): (k: nat)
    requires IsStage(name)
    ensures k < |Order| && Order[k] == name
  {
    if name == Setting then 0
    else if name == Perception then 1
    else if name == Emotion then 2
    else if name == Acceptance then 3
    else 4
  }

  /** Every stage name is written in capitals. */
  lemma StagesAreUpperCase(name: string)
    requires IsStage(name)
    ensures Upper(name) == name
  {
    var k := StageIndex(name);
    if k == 0 { UpperOfNoLower(Setting); }
    else if k == 1 { UpperOfNoLower(Perception); }
    else if k == 2 { UpperOfNoLower(Emotion); }
    else if k == 3 { UpperOfNoLower(Acceptance); }
    else { UpperOfNoLower(Reminiscence); }
  }

  /** `to_next_session`: a name whose upper-case form is one of the first
      four stages moves to the stage after it (the result is the canonical,
      upper-case name); any other name — REMINISCENCE in whatever case, or
      an unknown string — is returned exactly as given. */
  function ToNextSession(current: string): (r: string)
    ensures forall k :: 0 <= k < |Advancing| && Upper(current) == Order[k] ==> r == Order[k + 1]
    ensures Upper(current) !in Advancing ==> r == current
  {
    var key := Upper(current);
    assert Advancing == [Setting, Perception, Emotion, Acceptance];
    if key in Transition then Transition[key] else current
  }

  /** REMINISCENCE is a fixed point: advancing it, once or twice, leaves it. */
  lemma ReminiscenceIsFixedPoint()
    ensures ToNextSession(Reminiscence) == Reminiscence
    ensures ToNextSession(ToNextSession(Reminiscence)) == Reminiscence
  {
    StagesAreUpperCase(Reminiscence);
  }

  /** On a stage name, advancing stays inside the graph and moves exactly one
      step forward, except from the last stage, which does not move. */
  lemma AdvanceIsOneStep(name: string)
    requires IsStage(name)
    ensures IsStage(ToNextSession(name))
    ensures StageIndex(ToNextSession(name))
            == if StageIndex(name) < |Order| - 1 then StageIndex(name) + 1 else StageIndex(name)
  {
    StagesAreUpperCase(name);
    var k := StageIndex(name);
    if k == |Order| - 1 {
      ReminiscenceIsFixedPoint();
    } else {
      assert Upper(name) == Order[k];
    }
  }

  /** The lookup ignores case: a name in any case that denotes one of the
      first four stages advances exactly as its capitalised form does. */
  lemma AdvanceIgnoresCase(name: string)
    requires Upper(name) in Advancing
    ensures ToNextSession(name) == ToNextSession(Upper(name))
  {
    UpperIdempotent(name);
  }

  // ---------------------------------------------------------------------
  // The per-stage instruction of the counsellor prompt
  // ---------------------------------------------------------------------

  /** The instruction text itself is not part of the model; only which one
      is chosen is. */
  datatype Instruction = StageInstruction(stage: string) | DefaultInstruction

  /** `SESSION_INSTRUCTION_PROMPTS.get(stage, DEFAULT_INSTRUCTION_PROMPT)`:
      an exact, case-sensitive match on the five stage names selects that
      stage's instruction; every other string — including a lower-case
      stage name — falls back to the default. The lookup never fails. */
  function InstructionFor(stage: string): (r: Instruction)
    ensures r.StageInstruction? <==> IsStage(stage)
    ensures r.StageInstruction? ==> r.stage == stage
  {
    if IsStage(stage) then StageInstruction(stage) else DefaultInstruction
  }

  /** The transition table and the instruction table disagree about case: a
      stage stored in lower case advances to a canonical name, but while it
      stays in lower case it gets only the default instruction. */
  lemma CaseSensitivityOfTheTwoTables()
    ensures ToNextSession("setting") == Perception
    ensures InstructionFor("setting") == DefaultInstruction
    ensures InstructionFor(ToNextSession("setting")) == StageInstruction(Perception)
  {
    var lower := "setting";
    assert Upper(lower) == Setting;
    assert !IsStage(lower) by {
      assert lower != Setting && lower != Perception && lower != Emotion;
      assert lower != Acceptance && lower != Reminiscence;
    }
  }
}

=== FILE: utils.dfy ===
/**
 The pure helpers of chat/modules/utils.py: cutting a string for a log line,
 reading a one-digit choice out of a model reply, and rendering a chat
 history as text for a prompt.
 */
module Utils {
  import opened Common

  /** A chat message as langchain exposes it: its `type` tag ("human", "ai",
      "system", ...) and its text. */
  datatype Message = Message(kind: string, content: string)

  const Human: string := "human"
  const Ai: string := "ai"
  const System: string := "system"

  // ---------------------------------------------------------------------
  // trim_str
  // ---------------------------------------------------------------------

  function NewlinesToSpaces(s: string): (r: string)
    ensures |r| == |s|
    ensures forall i :: 0 <= i < |s| ==> r[i] == (if s[i] == '\n' then ' ' else s[i])
  {
    seq(|s|, i requires 0 <= i < |s| => if s[i] == '\n' then ' ' else s[i])
  }

  const Ellipsis: string := "..."

  /** `trim_str(msg, limit)`: a string that fits is returned untouched; a
      longer one keeps its first `limit` characters, with line feeds turned
      into spaces, and gains "..." — so the result is exactly `limit + 3`
      characters long and has no line feed before the ellipsis. */
  function TrimStr(msg: string, limit: nat): (r: string)
    ensures |msg| <= limit ==> r == msg
    ensures |msg| > limit ==> |r| == limit + 3 && r[limit..] == Ellipsis
    ensures |msg| > limit ==> forall i :: 0 <= i < limit ==>
              r[i] == (if msg[i] == '\n' then ' ' else msg[i])
  {
    if |msg| > limit then NewlinesToSpaces(msg[..limit]) + Ellipsis else msg
  }

  /** Trimming an already trimmed string changes nothing. */
  lemma TrimStrIdempotent(msg: string, limit: nat)
    ensures TrimStr(TrimStr(msg, limit), limit) == TrimStr(msg, limit)
  {
    if |msg| > limit {
      var t := TrimStr(msg, limit);
      assert NewlinesToSpaces(t[..limit]) == t[..limit];
      assert t == t[..limit] + Ellipsis;
    }
  }

  // ---------------------------------------------------------------------
  // extract_int
  // ---------------------------------------------------------------------

  /** Position `i` holds the first digit character of `s`. */
  ghost predicate FirstDigitAt(s: string, i: int) {
    0 <= i < |s| && IsDigit(s[i]) && forall j :: 0 <= j < i ==> !IsDigit(s[j])
  }

  predicate HasNoDigit(s: string) {
    forall j :: 0 <= j < |s| ==> !IsDigit(s[j])
  }

  /** The position of the first digit character, found by the generator
      expression `next(char for char in raw_answer if char.isdigit())`. */
  function FirstDigitIndex(s: string): (r: Option<nat>)
    ensures r.None? <==> HasNoDigit(s)
    ensures r.Some? ==> FirstDigitAt(s, r.value)
  {
    if |s| == 0 then None
    else if IsDigit(s[0]) then Some(0)
    else match FirstDigitIndex(s[1..])
      case None => None
      case Some(k) => Some(k + 1)
  }

  /** `extract_int(raw_answer, min_option, max_option, default)`. Only the
      first digit character of the reply is read: when it lies in
      [minOption, maxOption] it is the answer, otherwise — and when the
      reply holds no digit at all — the answer is `default`. The source
      asserts that `max_option` is a single digit. */
  function ExtractInt(raw: string, minOption: int, maxOption: int, default: int): (r: int)
    requires maxOption < 10
    ensures HasNoDigit(raw) ==> r == default
    ensures forall i :: FirstDigitAt(raw, i) ==>
              r == (if minOption <= DigitValue(raw[i]) <= maxOption then DigitValue(raw[i]) else default)
    ensures r == default || minOption <= r <= maxOption
    ensures r != default ==> exists i :: FirstDigitAt(raw, i) && r == DigitValue(raw[i])
  {
    match FirstDigitIndex(raw)
    case None => default
    case Some(i) =>
      var d := DigitValue(raw[i]);
      if minOption <= d <= maxOption then d else default
  }

  /** The 0/1 reading every binary classifier of the core applies to its
      reply (`extract_int(reply, 0, 1, default=0)`) gives 1 exactly when
      the reply's first digit is '1'. */
  function ParseBinary(reply: string): (r: int)
    ensures r == 0 || r == 1
    ensures r == 1 <==> exists i :: FirstDigitAt(reply, i) && reply[i] == '1'
  {
    ExtractInt(reply, 0, 1, 0)
  }

  /** Only the first digit decides: whatever follows it is never read. */
  lemma ExtractIntReadsFirstDigitOnly(prefix: string, d: char, rest: string,
                                      minOption: int, maxOption: int, default: int)
    requires maxOption < 10
    requires HasNoDigit(prefix) && IsDigit(d)
    ensures ExtractInt(prefix + [d] + rest, minOption, maxOption, default)
            == (if minOption <= DigitValue(d) <= maxOption then DigitValue(d) else default)
  {
    var s := prefix + [d] + rest;
    assert s[|prefix|] == d;
    assert FirstDigitAt(s, |prefix|);
  }

  /** "10" read as a 0/1 choice gives 1, and "8 then 3" read as a 1..7
      choice gives the default: the later, in-range 3 is never looked at. */
  lemma ExtractIntExamples(default: int)
    ensures ExtractInt("10", 0, 1, default) == 1
    ensures ExtractInt("8 then 3", 1, 7, default) == default
  {
    ExtractIntReadsFirstDigitOnly("", '1', "0", 0, 1, default);
    assert "" + ['1'] + "0" == "10";
    ExtractIntReadsFirstDigitOnly("", '8', " then 3", 1, 7, default);
    assert "" + ['8'] + " then 3" == "8 then 3";
  }

  // ---------------------------------------------------------------------
  // format_chat_history
  // ---------------------------------------------------------------------

  /** One rendered history line, `- {type}: {content}`. */
  function HistoryLine(m: Message): string {
    "- " + m.kind + ": " + m.content
  }

  function HistoryLines(history: seq<Message>): (r: seq<string>)
    ensures |r| == |history|
    ensures forall i :: 0 <= i < |history| ==> r[i] == HistoryLine(history[i])
  {
    seq(|history|, i requires 0 <= i < |history| => HistoryLine(history[i]))
  }

  /** `format_chat_history`: one line per message, in order, joined by line
      feeds; the empty history renders as "". */
  function FormatChatHistory(history: seq<Message>): (r: string)
    ensures |history| == 0 ==> r == ""
    ensures |history| == 1 ==> r == HistoryLine(history[0])
  {
    Join(HistoryLines(history), "\n")
  }

  /** Rendering a longer history extends the shorter rendering by a line
      feed and the new message's line: the rendering is built message by
      message, in order. */
  lemma FormatChatHistoryAppend(history: seq<Message>, m: Message)
    requires |history| > 0
    ensures FormatChatHistory(history + [m])
            == FormatChatHistory(history) + "\n" + HistoryLine(m)
  {
    assert HistoryLines(history + [m]) == HistoryLines(history) + [HistoryLine(m)];
    JoinSnoc(HistoryLines(history), HistoryLine(m), "\n");
  }
}
